=== FILE: README.md ===
# Query parser and document store of the Baloo search engine, in Dafny

This project models two parts of the Baloo full-text engine.

The first and larger part is the query parser, `QueryParser::parseQuery`. It
turns the text a user types into a tree of engine queries:
- top-level terms are And-ed together;
- outside any phrase, when the threshold `autoExpandSize` (3 by default)
  is non-zero, a word whose term (the prefix followed by the normalised
  word, as UTF-8) has at least that many bytes becomes a prefix
  (StartsWith) term; a threshold of 0 switches this off;
- words inside double or single quotes become a Phrase when the closing
  quote comes before a further word; a closing quote after the last word is
  never examined (see Left out);
- words the segmenter splits at punctuation without whitespace between
  them (`e-mail`, `foo/bar`) become a Phrase; which punctuation splits
  words is the segmenter's decision (`foo.bar` stays one word);
- every CJK ideograph of the text adds a StartsWith term of its own.

The parser is modelled as a pure left fold over the word segmentation of the
text. The state holds the three flags (in double quotes, in single quotes, in
a glued phrase), the position counter, the top-level queries and the phrase
buffer. The end-of-input flush, the CJK pass and the final And/single-query
choice follow it.

The source's loop (`BoundaryScan`) visits word boundaries. At the start of a
word it examines the text since the end of the last emitted word; at the end
of a word it emits the word. A boundary that is both the end of one word and
the start of the next is handled as a start only. `Scan` is the same fold
with every boundary handled on its own. The two agree whenever a non-empty
delimiter separates the words (`BoundaryQueriesSeparated`); where words
touch, the source loses a word (see Findings).

The second part is the `Database` document store. It is modelled as a map
from document id to document, with `addDocument`, `removeDocument`,
`hasDocument` and `document`.

Files:
- `unicode.dfy`: UTF-16 code units and bytes, whitespace, the CJK ranges,
  the underscore rewrite, and UTF-8 encoding of one code unit with its
  decoder.
- `engine_query.dfy`: the query tree, and the words (term and position) a
  tree carries.
- `query_parsing.dfy`: the parser itself.
- `query_parser_proofs.dfy`: in the parse that emits every word, each word
  of the input reaches the tree exactly once with its own position; in
  `parseQuery` as written this holds when no two words touch.
- `query_parser_scenarios.dfy`: the parser on small inputs, and the
  counterexamples behind the findings below.
- `database.dfy`: the document store.

The text after `_` has become ` ` is given to the parser together with a
segmentation of it: a list of (delimiter, word) tokens and the text after
the last word. `Segments` states that the pieces put back together give the
text.

## Model

| member | source | states |
|---|---|---|
| `Unicode.ContainsSpace` | src/engine/queryparser.cpp:39-46 | true exactly when some code unit of the string is whitespace |
| `Unicode.IsSpace` | src/engine/queryparser.cpp:41 | a space is whitespace, and no whitespace unit is a double or single quote, `_`, `-` or a CJK ideograph, so whitespace never counts as a quote or as CJK |
| `Unicode.ReplaceUnderscores` | src/engine/queryparser.cpp:53-54 | the rewritten text has the same length and contains no underscore |
| `Unicode.ReplaceUnderscoresAt` | src/engine/queryparser.cpp:54 | each underscore becomes a space and every other code unit stays where it was |
| `Unicode.IsCjk` | src/engine/queryparser.cpp:178-185 | a 16-bit code unit passes the five-range test exactly when it lies in 0x3400-0x9FFF or 0xF900-0xFAFF; the two supplementary ranges can never match, and a CJK unit is never a surrogate |
| `Unicode.EncodeUnit` | src/engine/queryparser.cpp:186 | the UTF-8 form of one code unit is 1, 2 or 3 bytes according to its range; a one-byte form is ASCII and a three-byte form has a lead byte 0xE0-0xEF |
| `Unicode.DecodeEncode` | src/engine/queryparser.cpp:186 | decoding the UTF-8 bytes of a CJK term gives the code unit back |
| `Unicode.EncodeDecode` | src/engine/queryparser.cpp:186 | every byte string the decoder accepts is exactly the encoding of what it decodes to |
| `EngineQueries.SetOp` | src/engine/queryparser.cpp:98 | re-tagging changes the op only: term, position and children stay |
| `EngineQueries.SetOpKeepsWords` | src/engine/queryparser.cpp:97-99 | re-tagging a pulled query as Equal keeps every word it carries |
| `QueryParsing.NewQueryParser` | src/engine/queryparser.cpp:33-36 | a new parser prefix-expands words of three bytes or more |
| `QueryParsing.SetAutoExpandSize` | src/engine/queryparser.cpp:208-211 | the threshold becomes the given int, with no range check |
| `QueryParsing.SameTermIffSameForm` | src/engine/queryparser.cpp:116-134 | when the encoder keeps distinct well-formed texts apart and both prefixed normalised words are well-formed, two words under one prefix give the same term exactly when the normaliser maps them to the same text |
| `QueryParsing.ExpandOp` | src/engine/queryparser.cpp:141-145 | a term is StartsWith exactly when the threshold is non-zero and the term has at least that many bytes, Equal otherwise |
| `QueryParsing.ExpandOpByLength` | src/engine/queryparser.cpp:141-145 | a threshold of 0 never expands, a negative one expands every term, a positive one leaves terms shorter than it Equal, and a longer term is expanded whenever a shorter one is |
| `QueryParsing.ClosePhrase` | src/engine/queryparser.cpp:77-78 | the top level gains one Phrase whose children are the buffered queries in order; the buffer is emptied; flags and position stay |
| `QueryParsing.PullLast` | src/engine/queryparser.cpp:96-99 | the last top-level query leaves the top level and joins the end of the buffer as Equal, with its term, position and children unchanged |
| `QueryParsing.OnDelimiter` | src/engine/queryparser.cpp:72-107 | an empty delimiter changes nothing; a double quote toggles its flag and wins over a single quote; glue without whitespace sets the phrase flag; whitespace clears it only when the buffer is non-empty, so an empty glued phrase stays open; the position never moves |
| `QueryParsing.OpensDoubleQuote` | src/engine/queryparser.cpp:75-83 | a delimiter with `"` outside double quotes only opens them |
| `QueryParsing.ClosesDoubleQuote` | src/engine/queryparser.cpp:75-80 | a delimiter with `"` inside double quotes closes them and emits the buffer as a Phrase |
| `QueryParsing.OpensSingleQuote` | src/engine/queryparser.cpp:85-93 | a delimiter with `'` and no `"` outside single quotes only opens them |
| `QueryParsing.ClosesSingleQuote` | src/engine/queryparser.cpp:85-90 | a delimiter with `'` and no `"` inside single quotes closes them and emits the buffer as a Phrase |
| `QueryParsing.GluePulls` | src/engine/queryparser.cpp:95-101 | glue outside a glued phrase, with a top-level query to take, pulls that query into the buffer and opens the phrase (under the corrected rule only when no quote is open) |
| `QueryParsing.GlueMarks` | src/engine/queryparser.cpp:95-101 | glue inside a glued phrase, with nothing to pull, or (corrected rule) inside quotes, only sets the phrase flag |
| `QueryParsing.BlankCloses` | src/engine/queryparser.cpp:103-106 | whitespace ending a glued phrase with buffered words emits them as a Phrase and clears the flag |
| `QueryParsing.BlankPasses` | src/engine/queryparser.cpp:103-107 | whitespace outside a glued phrase, or with an empty buffer, changes nothing |
| `QueryParsing.OnWord` | src/engine/queryparser.cpp:133-146 | each word takes the next position; while any flag is set it is buffered as Equal, otherwise it is appended to the top level with the auto-expand op |
| `QueryParsing.Step` | src/engine/queryparser.cpp:68-147 | one word with its delimiter advances the position by one; the double-quote flag flips exactly when the delimiter holds `"`, the single-quote flag exactly when it holds `'` and no `"` |
| `QueryParsing.StepBuffers` | src/engine/queryparser.cpp:136-139 | after a delimiter that leaves a flag set, the word joins the buffer as Equal at the next position |
| `QueryParsing.StepEmits` | src/engine/queryparser.cpp:136-146 | after a delimiter that leaves no flag set, the word joins the top level with the auto-expand op at the next position |
| `QueryParsing.Scan` | src/engine/queryparser.cpp:67-148 | the loop with every boundary handled on its own: after it the position equals the number of words |
| `QueryParsing.BoundaryStep` | src/engine/queryparser.cpp:69-114 | every start opens its word; right at the end of the open word the position stays and the text recorded as examined is the previous delimiter followed by that word; after a non-empty delimiter the position moves on by the emitted word and the delimiter is recorded |
| `QueryParsing.BoundaryStepExamines` | src/engine/queryparser.cpp:69-114 | a start right at the end of the open word emits nothing and examines the previous delimiter followed by that word; the first start examines its delimiter; a start after a non-empty delimiter first emits the open word, then examines the delimiter |
| `QueryParsing.BoundaryScan` | src/engine/queryparser.cpp:67-148 | the source's loop: there is an open word exactly when the text has words, and it is the last one |
| `QueryParsing.BoundaryQueries` | src/engine/queryparser.cpp:67-166 | the source's loop, the end boundary of the last word and the end-of-input flush: no query comes out exactly when the text has no words |
| `QueryParsing.BoundaryScanSeparated` | src/engine/queryparser.cpp:69-114 | when every word after the first has a non-empty delimiter, the source's loop reaches the state of the word-by-word fold, with the last word open |
| `QueryParsing.BoundaryQueriesSeparated` | src/engine/queryparser.cpp:67-166 | without touching words the source's loop and the word-by-word fold build the same queries |
| `QueryParsing.Finish` | src/engine/queryparser.cpp:150-166 | an open glued phrase is emitted as one Phrase; otherwise the buffer of an unclosed quote is appended in order, each query re-tagged by the auto-expand rule |
| `QueryParsing.Retag` | src/engine/queryparser.cpp:156-163 | each buffered query keeps its term, position and children and takes the op of the auto-expand rule |
| `QueryParsing.CjkUnits` | src/engine/queryparser.cpp:176-189 | the collected string holds only CJK units, a unit of the text occurs in it exactly when it is CJK, and a one-unit text gives itself or nothing |
| `QueryParsing.CjkUnitsAppend` | src/engine/queryparser.cpp:176-189 | collecting from a concatenation gives the two collections concatenated; with the one-unit case this fixes the result as one entry per CJK unit of the text, in order, duplicates kept |
| `QueryParsing.CjkTerm` | src/engine/queryparser.cpp:186 | a CJK unit's term is StartsWith at position 0 with no children, and its bytes decode back to that unit |
| `QueryParsing.CjkQueries` | src/engine/queryparser.cpp:176-189 | one StartsWith term without position per collected CJK code unit, in the same order |
| `QueryParsing.CollectCjk` | src/engine/queryparser.cpp:176-189 | the loop over the code units builds exactly the CJK term list and the CJK string |
| `QueryParsing.Combine` | src/engine/queryparser.cpp:202-205 | exactly one query is returned as is; any other number, none included, is wrapped in And; either way the words are unchanged |
| `QueryParsing.ParseSeparated` | src/engine/queryparser.cpp:49-206 | without touching words the source's parse equals the parse that emits every word |
| `QueryParsing.ParseQuery` | src/engine/queryparser.cpp:49-206 | a text with no words and no CJK unit gives an empty And; no words and one CJK unit give that unit's StartsWith term alone; no words and several give their And in text order |
| `QueryParsing.ParseQueryCorrected` | src/engine/queryparser.cpp:49-206 | the parse with both corrections keeps the same contract for texts without words |
| `QueryParserProofs.ClosePhraseKeepsWords` | src/engine/queryparser.cpp:77-78 | emitting the buffer as a Phrase moves its words to the top level unchanged and in order |
| `QueryParserProofs.PullKeepsWords` | src/engine/queryparser.cpp:96-100 | pulling the last top-level query into the buffer keeps the multiset of words, and their order when the buffer was empty |
| `QueryParserProofs.PullKeepsShape` | src/engine/queryparser.cpp:96-100 | after a pull no held query is an empty group |
| `QueryParserProofs.DelimiterKeepsWords` | src/engine/queryparser.cpp:72-107 | no delimiter loses or invents a word; under the corrected glue rule none reorders them |
| `QueryParserProofs.WordAppendsWord` | src/engine/queryparser.cpp:136-146 | a word lands after everything held so far, with the next position |
| `QueryParserProofs.StepAppendsWord` | src/engine/queryparser.cpp:68-147 | one token adds exactly its own word, term and position |
| `QueryParserProofs.ScanKeepsWords` | src/engine/queryparser.cpp:67-148 | after the word-by-word fold `Scan` (each boundary handled on its own) the state holds each word of the input exactly once with position k for the k-th word; under the corrected rule it holds them in input order |
| `QueryParserProofs.RetagKeepsWords` | src/engine/queryparser.cpp:156-163 | re-tagging the buffer at the end keeps every word it carries |
| `QueryParserProofs.FinishKeepsWords` | src/engine/queryparser.cpp:150-166 | the end-of-input flush keeps every word, in order |
| `QueryParserProofs.CjkQueriesCarryCjkWords` | src/engine/queryparser.cpp:176-189 | the CJK terms carry the UTF-8 bytes of each CJK code unit, in order |
| `QueryParserProofs.ParseWordsThenCjk` | src/engine/queryparser.cpp:67-205 | for every input, touching words included, the source's parse carries the words of its word queries and then the CJK terms in text order; the And or single-query choice adds and drops nothing |
| `QueryParserProofs.ParseCarries` | src/engine/queryparser.cpp:49-206 | the parse that emits every word carries the words the fold holds after the last word, in order, then the CJK terms |
| `QueryParserProofs.ParseWords` | src/engine/queryparser.cpp:49-206 | the parse that emits every word carries, under either glue rule and as a multiset, exactly the words of the input and the CJK terms |
| `QueryParserProofs.ParseQueryKeepsEveryWord` | src/engine/queryparser.cpp:49-206 | when no two words touch, `parseQuery` as written loses, duplicates or renumbers no word |
| `QueryParserProofs.CorrectedParseKeepsWordOrder` | src/engine/queryparser.cpp:95-102 | with both corrections the tree reads the words in input order, then the CJK terms |
| `QueryParserProofs.RulesAgreeWithoutQuotes` | src/engine/queryparser.cpp:95-102 | when no delimiter holds a quote, the corrected glue rule scans to the same state as the original |
| `QueryParserScenarios.GluedWordsFormPhrase` | src/engine/queryparser.cpp:95-102 | `a-b` becomes Phrase[a@1, b@2] of Equal terms (stated on `WordQueries`; every word after the first has a delimiter, so by `BoundaryQueriesSeparated` the source's loop gives the same) |
| `QueryParserScenarios.AdjacentWordsStaySeparate` | src/engine/queryparser.cpp:113-146 | with every boundary handled on its own, two touching words stay two top-level terms at positions 1 and 2 |
| `QueryParserScenarios.TouchingWordsLoseFirst` | src/engine/queryparser.cpp:69-114 | in the source, `カナabc` gives Phrase[abc@1]: the katakana word is never emitted, and its text, read as glue, opens a phrase |
| `QueryParserScenarios.QuoteThenTouchingWords` | src/engine/queryparser.cpp:69-114 | in the source, a double quote before a word touching the next gives an empty Phrase and then the second word at position 1: the touching start closes the quote just opened |
| `QueryParserScenarios.BlankSeparatedWords` | src/engine/queryparser.cpp:103-107 | `a b` gives two top-level terms, each tagged by the auto-expand rule (stated on `WordQueries`; every word after the first has a delimiter, so by `BoundaryQueriesSeparated` the source's loop gives the same) |
| `QueryParserScenarios.QuotedPhraseThenWord` | src/engine/queryparser.cpp:75-94 | `"a b" c` and `'a b' c` give Phrase[a@1, b@2] followed by the term c@3 (stated on `WordQueries`; every word after the first has a delimiter, so by `BoundaryQueriesSeparated` the source's loop gives the same) |
| `QueryParserScenarios.UnclosedQuoteRetagged` | src/engine/queryparser.cpp:156-166 | words after a quote that is never closed fall back to top-level terms, re-tagged by the auto-expand rule (stated on `WordQueries`; every word after the first has a delimiter, so by `BoundaryQueriesSeparated` the source's loop gives the same) |
| `QueryParserScenarios.ClosingQuoteAtEndIsIgnored` | src/engine/queryparser.cpp:68-114 | in `"a b"` the final quote is never examined, so the result is And[a@1, b@2], not a Phrase |
| `QueryParserScenarios.SingleWordQuery` | src/engine/queryparser.cpp:202-204 | a one-word query with nothing before the word is that word's term at position 1, not an And (`-foo` is not: the glue before it makes Phrase[foo@1]) |
| `QueryParserScenarios.DefaultParserExpandsLongWords` | src/engine/queryparser.cpp:33-34 | with the default parser a lone word is StartsWith exactly when its term has at least three bytes; with threshold 0 it is Equal |
| `QueryParserScenarios.UnderscoreNeverGlues` | src/engine/queryparser.cpp:54 | after the rewrite no delimiter or word contains `_`, so an underscore separates words as whitespace does |
| `QueryParserScenarios.GlueInQuotesReordersPhrase` | src/engine/queryparser.cpp:96-100 | `foo "bar-baz` gives Phrase[bar@2, foo@1, baz@3]: the glue pulls a word from before the quote into the phrase, out of order (stated on `WordQueries`; `GlueInQuotesBoundary` states it for the source's loop) |
| `QueryParserScenarios.GlueInQuotesBoundary` | src/engine/queryparser.cpp:96-100 | through the source's boundary loop, `foo "bar-baz` gives the same out-of-order Phrase[bar@2, foo@1, baz@3] |
| `QueryParserScenarios.QuoteAwareGlueKeepsPhraseInOrder` | src/engine/queryparser.cpp:96-100 | with the corrected rule the same input gives foo@1, then Phrase[bar@2, baz@3] |
| `QueryParserScenarios.GlueInQuotesPullsPhraseNode` | src/engine/queryparser.cpp:96-99 | `"a-b c-d` pulls the already-built Phrase[a, b] back and re-tags it Equal, leaving a node that is neither term nor group inside the final phrase (stated on `WordQueries`; every word after the first has a delimiter, so by `BoundaryQueriesSeparated` the source's loop gives the same) |
| `DocumentStore.SetId` | src/engine/autotests/databasetest.cpp:44 | setting the id keeps the terms |
| `DocumentStore.AddTerm` | src/engine/autotests/databasetest.cpp:45-48 | afterwards the term is in the document, every earlier term stays, no other term appears and the id is unchanged |
| `DocumentStore.AddTermIdempotent` | src/engine/autotests/databasetest.cpp:45-48 | adding a term that is already there changes nothing |
| `DocumentStore.AddTermsCommute` | src/engine/autotests/databasetest.cpp:45-48 | terms can be added in either order |
| `DocumentStore.Open` | src/engine/autotests/databasetest.cpp:40-41 | a database opened on a new directory holds no document |
| `DocumentStore.HasDocument` | src/engine/database.h:43 | in a consistent store, true exactly when some stored document carries the id |
| `DocumentStore.GetDocument` | src/engine/database.h:44 | an absent id gives the default `Document()` rather than an error; a present id gives a document with that id |
| `DocumentStore.AddDocument` | src/engine/database.h:40 | afterwards the document is found under its id and read back unchanged; no other id changes |
| `DocumentStore.RemoveDocument` | src/engine/database.h:41 | afterwards the id is absent and reads as `Document()`; an absent id is no error; no other id changes |
| `DocumentStore.HasIffNotEmpty` | src/engine/database.h:43-44 | for a non-zero id, `hasDocument` holds exactly when `document` is not the default document |
| `DocumentStore.RemoveUndoesAdd` | src/engine/autotests/databasetest.cpp:50-56 | removing what was just added leaves the same store as removing the id directly |
| `DocumentStore.AddThenRemoveRestores` | src/engine/autotests/databasetest.cpp:50-56 | adding a new document and removing it gives back the store it started from |
| `DocumentStore.AddIdempotent` | src/engine/database.h:40 | adding the same document twice equals adding it once |
| `DocumentStore.ReAddReplaces` | src/engine/database.h:40 | re-adding an id replaces the earlier document completely |
| `DocumentStore.RemoveAbsentIsNoOp` | src/engine/database.h:41 | removing an id that is not stored changes nothing |
| `DocumentStore.AddsCommute` | src/engine/database.h:40 | adds of different ids can be done in either order |
| `DocumentStore.DatabaseTestScenario` | src/engine/autotests/databasetest.cpp:36-57 | the unit test's sequence: absent, added with terms "a", "ab", "abc" and "power" and read back equal, the four terms as a set, removed and read as `Document()` |

## Left out

- Word segmentation (`QTextBoundaryFinder`, lines 67-68) is given as the
  `Segmentation` argument, constrained only by `Segments`. Which runs of
  text count as words is Unicode's word-boundary algorithm in Qt's
  implementation, which is not part of this model.
- Whether Qt reports a boundary as both the end of one word and the start
  of the next is decided by the segmenter; the model takes it as a token
  with an empty delimiter and follows the source's handling of it
  (`BoundaryStep`).
- QueryParserProofs.ParseQueryKeepsEveryWord requires `Separated`: where
  two words touch, the source drops the first (see Findings), so the
  promise holds only when no two words touch. It compares multisets, not
  sequences, because the source's glue rule moves a word from before a
  quote into the quoted phrase (see Findings). `ParseWords` states it for
  every input of the corrected parse, `CorrectedParseKeepsWordOrder` with
  the order, and `ParseWordsThenCjk` relates the source's parse to its
  word queries for every input.
- QueryParsing.TermBytes has no contract of its own: the normaliser and the
  encoder are parameters, so nothing about a term follows beyond its
  definition. In particular, that words differing only in case share a
  term is not promised; `SameTermIffSameForm` states what follows when the
  encoder keeps distinct texts apart. That assumption covers well-formed
  text only: `QString::toUtf8` writes `?` for an unpaired surrogate, so a
  text holding one can share its term with another text, and the lemma
  says nothing about such words.
- Term normalisation (lines 119-131: lower case, NFKD, dropping marks,
  NFKC) and `QString::toUtf8` for words are the function parameters
  `TextServices.normalize` and `TextServices.toUtf8`; Unicode case mapping
  and normalisation tables are not modelled. The UTF-8 encoding of a single
  CJK code unit (line 186) is modelled concretely.
- KJieba segmentation of the CJK string (lines 192-199) is a build option
  calling a foreign library and is left out, so a non-empty `cjkString`
  adds nothing beyond the per-character terms.
- `Q_ASSERT(!text_.isEmpty())` (line 51) is the requirement `|text| > 0`.
- Text is a sequence of UTF-16 code units, as in `QString`. A code point
  outside the Basic Multilingual Plane is two surrogate units. Neither unit
  is CJK, so the supplementary CJK ranges at lines 183 and 185 never match;
  `Unicode.IsCjk` states this.
- `QChar::isSpace` is the fixed table in `Unicode.IsSpace` (categories Zs,
  Zl and Zp of the Basic Multilingual Plane, plus TAB to CR and U+0085).
- The `int` position counter is an unbounded `nat`; overflow after 2^31
  words is not modelled.
- `enginequery.h` is not part of this model. `EngineQuery(term, position)`
  is taken to make an Equal term, and `EngineQuery(subQueries, op)` a node
  with an empty term and position 0.
- `document.h` is not part of this model. A `Document` is its id and the
  set of its terms, so two documents are equal exactly when their ids and
  term sets are; the term positions of the indexing pipeline, and any
  other field `operator==` might compare, are not modelled.
- The `Database` constructor's path and the persistence of the store
  across openings, the LMDB environment and transactions, `PostingDB`,
  `DocumentDB` and `commit()` (`database.h` lines 25, 36-37 and 46-52) are
  left out. Their code is not part of this model and sits on a foreign
  library. The store's behaviour is the one its unit test asserts.
- QueryParserScenarios.DefaultParserExpandsLongWords is stated on the word
  queries of a one-word segmentation rather than on the whole parse;
  `QueryParserScenarios.SingleWordQuery` lifts any such word query to
  `parseQuery`.
- The text after the last word (`Segmentation.trailing`) is never
  examined: a delimiter is looked at only when the next word starts (lines
  69-108). So the closing quote of `"a b"` does not close the phrase, and the
  buffered words are flushed as separate re-tagged terms under an And
  (lines 156-166, `QueryParserScenarios.ClosingQuoteAtEndIsIgnored`).

## Findings

| source | as written | input that shows it | evidently intended | confidence | as-written member | corrected member |
|---|---|---|---|---|---|---|
| src/engine/queryparser.cpp:96 | glue between two words pulls the last top-level query into the phrase buffer even while a quote is open, because only `inPhrase` is checked | `foo "bar-baz` gives Phrase[bar@2, foo@1, baz@3], mixing a word from before the quote into the quoted phrase, out of position order; `"a-b c-d` even pulls back the Phrase it has just built | inside quotes, glue only marks the phrase; `foo` stays a top-level term and the phrase is [bar@2, baz@3] | not executed; high that the output is as shown, medium that it is unintended | `QueryParserScenarios.GlueInQuotesBoundary` | `QueryParserProofs.CorrectedParseKeepsWordOrder` |
| src/engine/queryparser.cpp:69-114 | a boundary that ends one word and starts the next is taken as a start only: the StartOfItem test comes first and ends in `continue`, and `end` is not moved. The first word is never emitted, and its text is examined as part of the next delimiter | `カナabc`, a katakana word touching a Latin word, gives Phrase[abc@1]: `カナ` is lost and, having no space or quote, reads as glue; after a double quote (`"カナabc`) the quote is examined twice and the first query is an empty Phrase (`QueryParserScenarios.QuoteThenTouchingWords`) | each word is emitted at its end, so `カナabc` gives And[カナ@1, abc@2] | not executed; high that the loop behaves as shown for such a boundary, medium that Qt reports this boundary with both reasons | `QueryParserScenarios.TouchingWordsLoseFirst` | `QueryParserProofs.ParseWords` |

The corrected glue rule is `GlueRule.QuoteAware`: a glue delimiter pulls
the previous top-level query only when no quote is open. The corrected
boundary handling is `QueryParsing.ParseEveryWord`, which folds `Scan`
instead of `BoundaryScan`, so every word is emitted at its own end.
`QueryParsing.ParseQueryCorrected` applies both corrections.
`QueryParserProofs.RulesAgreeWithoutQuotes` shows that the glue correction
changes nothing for text without quotes, and
`QueryParsing.BoundaryQueriesSeparated` that the boundary correction
changes nothing when a non-empty delimiter precedes every word but the
first.

=== FILE: database.dfy ===
/** The Database document store, as an abstract map from document id to
    the document stored under it. The mutators have no return code, so they
    are total; looking up an absent id gives the default Document rather
    than an error. */
module DocumentStore {
  import opened Unicode

  /** The `uint` a document is keyed by. */
  newtype DocId = x: int | 0 <= x < 0x1_0000_0000

  /** One term of a document, as the bytes `addTerm` is given. */
  type Term = seq<Byte>

  /** A document: its id and the set of its terms. Adding a term twice
      stores it once, and the order of adds is not kept, so two documents
      are equal exactly when their ids and term sets are. */
  datatype Document = Document(id: DocId, terms: set<Term>)

  /** `Document()`: id 0 and no terms. */
  const EmptyDocument := Document(0, {})

  function SetId(doc: Document, id: DocId): (r: Document)
    ensures r.id == id && r.terms == doc.terms
  {
    doc.(id := id)
  }

  function AddTerm(doc: Document, term: Term): (r: Document)
    ensures r.id == doc.id && term in r.terms
    ensures forall t :: t in r.terms <==> t == term || t in doc.terms
  {
    doc.(terms := doc.terms + {term})
  }

  /** Adding a term that is already there changes nothing. */
  lemma AddTermIdempotent(doc: Document, term: Term)
    ensures AddTerm(AddTerm(doc, term), term) == AddTerm(doc, term)
  {
    var a, b := AddTerm(AddTerm(doc, term), term), AddTerm(doc, term);
    assert a.terms == b.terms by {
      forall t ensures t in a.terms <==> t in b.terms {
      }
    }
  }

  /** Terms can be added in either order. */
  lemma AddTermsCommute(doc: Document, t1: Term, t2: Term)
    ensures AddTerm(AddTerm(doc, t1), t2) == AddTerm(AddTerm(doc, t2), t1)
  {
    var a, b := AddTerm(AddTerm(doc, t1), t2), AddTerm(AddTerm(doc, t2), t1);
    assert a.terms == b.terms by {
      forall t ensures t in a.terms <==> t in b.terms {
      }
    }
  }

  datatype Database = Database(documents: map<DocId, Document>)

  /** Every stored document sits under its own id. */
  ghost predicate Valid(db: Database)
  {
    forall id :: id in db.documents ==> db.documents[id].id == id
  }

  /** `hasDocument(id)`: in a consistent store, whether some stored
      document carries the id. */
  function HasDocument(db: Database, id: DocId): (r: bool)
    ensures Valid(db) ==> (r <==> exists d :: d in db.documents.Values && d.id == id)
  {
    assert Valid(db) && id in db.documents ==> db.documents[id] in db.documents.Values;
    assert Valid(db) ==> forall d :: d in db.documents.Values ==> d.id in db.documents;
    id in db.documents
  }

  /** `document(id)`: the stored document, or `Document()` when there is
      none. */
  function GetDocument(db: Database, id: DocId): (r: Document)
    ensures !HasDocument(db, id) ==> r == EmptyDocument
    ensures Valid(db) && HasDocument(db, id) ==> r.id == id
  {
    if id in db.documents then db.documents[id] else EmptyDocument
  }

  /** A database opened on a new directory holds no document. */
  function Open(): (db: Database)
    ensures Valid(db)
    ensures forall id: DocId :: !HasDocument(db, id) && GetDocument(db, id) == EmptyDocument
  {
    Database(map[])
  }

  /** `addDocument(doc)`: afterwards `doc` is found under its id, replacing
      whatever was stored there, and no other id changes. */
  function AddDocument(db: Database, doc: Document): (r: Database)
    ensures HasDocument(r, doc.id) && GetDocument(r, doc.id) == doc
    ensures forall id :: id != doc.id ==>
      HasDocument(r, id) == HasDocument(db, id) && GetDocument(r, id) == GetDocument(db, id)
    ensures Valid(db) ==> Valid(r)
  {
    Database(db.documents[doc.id := doc])
  }

  /** `removeDocument(id)`: afterwards nothing is stored under `id`; an
      absent id is not an error; no other id changes. */
  function RemoveDocument(db: Database, id: DocId): (r: Database)
    ensures !HasDocument(r, id) && GetDocument(r, id) == EmptyDocument
    ensures forall other :: other != id ==>
      HasDocument(r, other) == HasDocument(db, other) && GetDocument(r, other) == GetDocument(db, other)
    ensures Valid(db) ==> Valid(r)
  {
    Database(db.documents - {id})
  }

  /** Two databases that agree on every lookup are the same database. */
  lemma Extensionality(a: Database, b: Database)
    requires forall id :: HasDocument(a, id) == HasDocument(b, id) && GetDocument(a, id) == GetDocument(b, id)
    ensures a == b
  {
    forall id
      ensures id in a.documents <==> id in b.documents
    {
      assert HasDocument(a, id) == HasDocument(b, id);
    }
    assert a.documents.Keys == b.documents.Keys;
    forall id | id in a.documents
      ensures a.documents[id] == b.documents[id]
    {
      assert GetDocument(a, id) == GetDocument(b, id);
    }
    assert a.documents == b.documents;
  }

  /** For a non-zero id, the id is present exactly when the lookup gives
      something other than the default document. */
  lemma HasIffNotEmpty(db: Database, id: DocId)
    requires Valid(db) && id != 0
    ensures HasDocument(db, id) <==> GetDocument(db, id) != EmptyDocument
  {
  }

  /** Removing what was just added gives back the database without that
      id: the add leaves no trace behind it. */
  lemma RemoveUndoesAdd(db: Database, doc: Document)
    ensures RemoveDocument(AddDocument(db, doc), doc.id) == RemoveDocument(db, doc.id)
  {
    var a, b := RemoveDocument(AddDocument(db, doc), doc.id), RemoveDocument(db, doc.id);
    Extensionality(a, b);
  }

  /** Adding a document that is not stored yet and then removing it gives
      back the database it started from. */
  lemma AddThenRemoveRestores(db: Database, doc: Document)
    requires !HasDocument(db, doc.id)
    ensures RemoveDocument(AddDocument(db, doc), doc.id) == db
  {
    var a := RemoveDocument(AddDocument(db, doc), doc.id);
    Extensionality(a, db);
  }

  /** Adding the same document twice is the same as adding it once. */
  lemma AddIdempotent(db: Database, doc: Document)
    ensures AddDocument(AddDocument(db, doc), doc) == AddDocument(db, doc)
  {
    var a, b := AddDocument(AddDocument(db, doc), doc), AddDocument(db, doc);
    Extensionality(a, b);
  }

  /** Re-adding an id replaces the document stored under it: the earlier
      terms are gone. */
  lemma ReAddReplaces(db: Database, earlier: Document, later: Document)
    requires earlier.id == later.id
    ensures AddDocument(AddDocument(db, earlier), later) == AddDocument(db, later)
  {
    var a, b := AddDocument(AddDocument(db, earlier), later), AddDocument(db, later);
    Extensionality(a, b);
  }

  /** Removing an id that is not stored changes nothing. */
  lemma RemoveAbsentIsNoOp(db: Database, id: DocId)
    requires !HasDocument(db, id)
    ensures RemoveDocument(db, id) == db
  {
    Extensionality(RemoveDocument(db, id), db);
  }

  /** Adds of documents with different ids commute. */
  lemma AddsCommute(db: Database, d1: Document, d2: Document)
    requires d1.id != d2.id
    ensures AddDocument(AddDocument(db, d1), d2) == AddDocument(AddDocument(db, d2), d1)
  {
    var a, b := AddDocument(AddDocument(db, d1), d2), AddDocument(AddDocument(db, d2), d1);
    Extensionality(a, b);
  }

  /** The unit test's scenario: a fresh database lacks id 1; after adding
      document 1 with the terms "a", "ab", "abc", "power" it has id 1 and
      gives that document back; after removing id 1 it lacks it again and
      gives the default document. */
  lemma DatabaseTestScenario()
    ensures
      var db := Open();
      var doc := AddTerm(AddTerm(AddTerm(AddTerm(SetId(EmptyDocument, 1), [0x61]), [0x61, 0x62]),
                                 [0x61, 0x62, 0x63]), [0x70, 0x6F, 0x77, 0x65, 0x72]);
      var added := AddDocument(db, doc);
      var removed := RemoveDocument(added, 1);
      && !HasDocument(db, 1)
      && HasDocument(added, 1) && GetDocument(added, 1) == doc
      && doc.terms == {[0x61], [0x61, 0x62], [0x61, 0x62, 0x63], [0x70, 0x6F, 0x77, 0x65, 0x72]}
      && !HasDocument(removed, 1) && GetDocument(removed, 1) == EmptyDocument
      && removed == db
  {
    var db := Open();
    var doc := AddTerm(AddTerm(AddTerm(AddTerm(SetId(EmptyDocument, 1), [0x61]), [0x61, 0x62]),
                               [0x61, 0x62, 0x63]), [0x70, 0x6F, 0x77, 0x65, 0x72]);
    AddThenRemoveRestores(db, doc);
  }
}

=== FILE: engine_query.dfy ===
/** The query tree the parser builds (EngineQuery). A node is a record of an
    operation, a term, a position and sub-queries: terms use op Equal or
    StartsWith with bytes and a 1-based position (0 when the term has none),
    groups use op And or Phrase with sub-queries. Because the parser changes
    the op of a node it has already built, a node outside these two shapes
    can arise, so the record is kept rather than one constructor per kind. */
module EngineQueries {
  import opened Unicode

  datatype Op = Equal | StartsWith | And | Phrase

  datatype Query = Query(op: Op, term: seq<Byte>, pos: nat, subs: seq<Query>)

  predicate IsGroupOp(op: Op)
  {
    op == And || op == Phrase
  }

  /** `EngineQuery(term, op, position)`. */
  function TermQuery(term: seq<Byte>, op: Op, pos: nat): Query
  {
    Query(op, term, pos, [])
  }

  /** `EngineQuery(subQueries, op)`. */
  function GroupQuery(subs: seq<Query>, op: Op): Query
  {
    Query(op, [], 0, subs)
  }

  /** `EngineQuery::setOp`: only the operation changes. */
  function SetOp(q: Query, op: Op): (r: Query)
    ensures r.op == op && r.term == q.term && r.pos == q.pos && r.subs == q.subs
  {
    q.(op := op)
  }

  /** What a query says about one word of the input: its term bytes and
      its position. */
  datatype Word = Word(term: seq<Byte>, pos: nat)

  /** A node that is not an empty And/Phrase group; re-tagging such a node
      with a term op never changes the words it carries. */
  predicate NotEmptyGroup(q: Query)
  {
    q.subs != [] || !IsGroupOp(q.op)
  }

  /** The words a query carries, left to right: a node without sub-queries
      is a word unless it is an (empty) group, and any other node carries
      the words of its sub-queries. */
  function WordsOf(q: Query): seq<Word>
    decreases q
  {
    if q.subs == [] then (if IsGroupOp(q.op) then [] else [Word(q.term, q.pos)])
    else WordsOfAll(q.subs)
  }

  function WordsOfAll(qs: seq<Query>): seq<Word>
    decreases qs
  {
    if |qs| == 0 then [] else WordsOfAll(qs[..|qs| - 1]) + WordsOf(qs[|qs| - 1])
  }

  lemma {:induction false} WordsOfAllAppend(a: seq<Query>, b: seq<Query>)
    ensures WordsOfAll(a + b) == WordsOfAll(a) + WordsOfAll(b)
    decreases |b|
  {
    if |b| == 0 {
      assert a + b == a;
    } else {
      var b' := b[..|b| - 1];
      assert (a + b)[..|a + b| - 1] == a + b';
      WordsOfAllAppend(a, b');
    }
  }

  lemma WordsOfAllSnoc(qs: seq<Query>, q: Query)
    ensures WordsOfAll(qs + [q]) == WordsOfAll(qs) + WordsOf(q)
  {
    assert (qs + [q])[..|qs|] == qs;
  }

  /** A sequence of plain terms carries one word per term, in order. */
  lemma {:induction false} WordsOfTerms(qs: seq<Query>)
    requires forall i :: 0 <= i < |qs| ==> qs[i].subs == [] && !IsGroupOp(qs[i].op)
    ensures WordsOfAll(qs) == seq(|qs|, i requires 0 <= i < |qs| => Word(qs[i].term, qs[i].pos))
    decreases |qs|
  {
    if |qs| > 0 {
      WordsOfTerms(qs[..|qs| - 1]);
    }
  }

  lemma WordsOfAllSingle(q: Query)
    ensures WordsOfAll([q]) == WordsOf(q)
  {
    assert [q][..0] == [];
  }

  /** A group node carries exactly the words of its sub-queries. */
  lemma WordsOfGroup(subs: seq<Query>, op: Op)
    requires IsGroupOp(op)
    ensures WordsOf(GroupQuery(subs, op)) == WordsOfAll(subs)
  {
  }

  /** Changing the op of a node that is not an empty group to a term op
      keeps the words it carries. */
  lemma SetOpKeepsWords(q: Query, op: Op)
    requires NotEmptyGroup(q) && !IsGroupOp(op)
    ensures WordsOf(SetOp(q, op)) == WordsOf(q)
    ensures NotEmptyGroup(SetOp(q, op))
  {
  }
}

=== FILE: query_parser_proofs.dfy ===
/** Properties of the query parser: every word of the input reaches the
    result exactly once with its own position, in input order under the
    corrected glue rule, and the two glue rules agree on text without
    quotes. */
module QueryParserProofs {
  import opened Unicode
  import opened EngineQueries
  import opened QueryParsing

  /** The word each token contributes: its term bytes and position k + 1. */
  function ExpectedWords(svc: TextServices, prefix: seq<CodeUnit>, toks: seq<Token>): seq<Word>
  {
    seq(|toks|, k requires 0 <= k < |toks| => Word(TermBytes(svc, prefix, toks[k].word), k + 1))
  }

  /** The word each CJK code unit contributes: its UTF-8 bytes, no position. */
  function CjkWords(text: seq<CodeUnit>): seq<Word>
  {
    var units := CjkUnits(text);
    seq(|units|, i requires 0 <= i < |units| => Word(EncodeUnit(units[i]), 0))
  }

  /** The words a parser state holds: the top-level queries, then the buffer. */
  function Carried(st: State): seq<Word>
  {
    WordsOfAll(st.queries) + WordsOfAll(st.phraseQueries)
  }

  /** Between two words, the buffer is non-empty exactly while a flag is
      set, and no query held is an empty group. */
  ghost predicate Inv(st: State)
  {
    && (Grouping(st) <==> st.phraseQueries != [])
    && (forall q :: q in st.queries ==> NotEmptyGroup(q))
    && (forall q :: q in st.phraseQueries ==> NotEmptyGroup(q))
  }

  /** After a delimiter, before its word: the buffer is empty when no flag
      is set. */
  ghost predicate MidInv(st: State)
  {
    && (!Grouping(st) ==> st.phraseQueries == [])
    && (forall q :: q in st.queries ==> NotEmptyGroup(q))
    && (forall q :: q in st.phraseQueries ==> NotEmptyGroup(q))
  }

  lemma ClosePhraseKeepsWords(st: State)
    requires st.phraseQueries != []
    ensures Carried(ClosePhrase(st)) == Carried(st)
    ensures ClosePhrase(st).queries == st.queries + [GroupQuery(st.phraseQueries, Phrase)]
    ensures NotEmptyGroup(GroupQuery(st.phraseQueries, Phrase))
  {
    WordsOfAllSnoc(st.queries, GroupQuery(st.phraseQueries, Phrase));
    WordsOfGroup(st.phraseQueries, Phrase);
  }

  /** Pulling the last top-level query into the buffer keeps the words;
      it keeps their order when the buffer was empty. */
  lemma PullKeepsWords(st: State)
    requires |st.queries| > 0
    requires forall q :: q in st.queries ==> NotEmptyGroup(q)
    ensures multiset(Carried(PullLast(st))) == multiset(Carried(st))
    ensures st.phraseQueries == [] ==> Carried(PullLast(st)) == Carried(st)
  {
    var front := st.queries[..|st.queries| - 1];
    var last := st.queries[|st.queries| - 1];
    PullCarried(st);
    SwapKeepsMultiset(WordsOfAll(front), WordsOf(last), WordsOfAll(st.phraseQueries));
  }

  /** What the state carries before and after a pull, split into the words
      of the front queries, of the pulled query and of the buffer. */
  lemma PullCarried(st: State)
    requires |st.queries| > 0
    requires forall q :: q in st.queries ==> NotEmptyGroup(q)
    ensures Carried(st) == WordsOfAll(st.queries[..|st.queries| - 1])
                         + WordsOf(st.queries[|st.queries| - 1]) + WordsOfAll(st.phraseQueries)
    ensures Carried(PullLast(st)) == WordsOfAll(st.queries[..|st.queries| - 1])
                         + (WordsOfAll(st.phraseQueries) + WordsOf(st.queries[|st.queries| - 1]))
  {
    var front := st.queries[..|st.queries| - 1];
    var last := st.queries[|st.queries| - 1];
    assert st.queries == front + [last];
    assert last in st.queries;
    WordsOfAllSnoc(front, last);
    WordsOfAllSnoc(st.phraseQueries, SetOp(last, Equal));
    SetOpKeepsWords(last, Equal);
  }

  /** Moving a middle block to the end keeps the multiset, and keeps the
      sequence when the block it jumps over is empty. */
  lemma SwapKeepsMultiset(a: seq<Word>, b: seq<Word>, c: seq<Word>)
    ensures multiset(a + (c + b)) == multiset(a + b + c)
    ensures c == [] ==> a + (c + b) == a + b + c
  {
    calc {
      multiset(a + (c + b));
      multiset(a) + (multiset(c) + multiset(b));
      multiset(a) + multiset(b) + multiset(c);
      multiset(a + b + c);
    }
    if c == [] {
      assert c + b == b;
    }
  }

  /** Pulling keeps every held query a non-empty group or a term. */
  lemma PullKeepsShape(st: State)
    requires |st.queries| > 0
    requires forall q :: q in st.queries ==> NotEmptyGroup(q)
    requires forall q :: q in st.phraseQueries ==> NotEmptyGroup(q)
    ensures forall q :: q in PullLast(st).queries ==> NotEmptyGroup(q)
    ensures forall q :: q in PullLast(st).phraseQueries ==> NotEmptyGroup(q)
  {
    var r := PullLast(st);
    var last := st.queries[|st.queries| - 1];
    assert last in st.queries;
    SetOpKeepsWords(last, Equal);
    forall q | q in r.queries
      ensures NotEmptyGroup(q)
    {
      assert q in st.queries;
    }
    forall q | q in r.phraseQueries
      ensures NotEmptyGroup(q)
    {
      if q != SetOp(last, Equal) {
        assert q in st.phraseQueries;
      }
    }
  }

  lemma CloseKeepsInv(st: State, r: State)
    requires Inv(st) && st.phraseQueries != []
    requires r == ClosePhrase(st).(inDoubleQuotes := r.inDoubleQuotes, inSingleQuotes := r.inSingleQuotes, inPhrase := r.inPhrase)
    requires !Grouping(r) ==> r.phraseQueries == []
    ensures MidInv(r)
    ensures Carried(r) == Carried(st)
  {
    ClosePhraseKeepsWords(st);
    forall q | q in r.queries
      ensures NotEmptyGroup(q)
    {
      if q != GroupQuery(st.phraseQueries, Phrase) {
        assert q in st.queries;
      }
    }
  }

  /** A delimiter neither adds nor drops a word. Under the corrected glue
      rule it does not reorder them either. */
  lemma DelimiterKeepsWords(st: State, delim: seq<CodeUnit>, glue: GlueRule)
    requires Inv(st)
    ensures MidInv(OnDelimiter(st, delim, glue))
    ensures multiset(Carried(OnDelimiter(st, delim, glue))) == multiset(Carried(st))
    ensures glue == QuoteAware ==> Carried(OnDelimiter(st, delim, glue)) == Carried(st)
  {
    var r := OnDelimiter(st, delim, glue);
    if |delim| == 0 {
    } else if DoubleQuote in delim {
      if st.inDoubleQuotes {
        CloseKeepsInv(st, r);
      }
    } else if SingleQuote in delim {
      if st.inSingleQuotes {
        CloseKeepsInv(st, r);
      }
    } else if !ContainsSpace(delim) {
      var pull := !st.inPhrase && |st.queries| > 0
        && (glue == AsWritten || (!st.inDoubleQuotes && !st.inSingleQuotes));
      if pull {
        PullKeepsWords(st);
        PullKeepsShape(st);
        assert r == PullLast(st).(inPhrase := true);
      }
    } else if st.inPhrase && |st.phraseQueries| > 0 {
      CloseKeepsInv(st, r);
    }
  }

  /** A word lands at the end of what the state carries, with the next
      position. */
  lemma WordAppendsWord(st: State, term: seq<Byte>, autoExpandSize: int)
    requires MidInv(st)
    ensures Inv(OnWord(st, term, autoExpandSize))
    ensures Carried(OnWord(st, term, autoExpandSize)) == Carried(st) + [Word(term, st.position + 1)]
  {
    var r := OnWord(st, term, autoExpandSize);
    var t := r.position;
    if Grouping(st) {
      WordsOfAllSnoc(st.phraseQueries, TermQuery(term, Equal, t));
    } else {
      var q := TermQuery(term, ExpandOp(autoExpandSize, term), t);
      assert r.queries == st.queries + [q];
      WordsOfAllSnoc(st.queries, q);
    }
  }

  /** One token appends its word to what the state carries. */
  lemma StepAppendsWord(cfg: Config, st: State, tok: Token)
    requires Inv(st)
    ensures Inv(Step(cfg, st, tok))
    ensures multiset(Carried(Step(cfg, st, tok)))
         == multiset(Carried(st)) + multiset{Word(TermBytes(cfg.svc, cfg.prefix, tok.word), st.position + 1)}
    ensures cfg.glue == QuoteAware ==>
      Carried(Step(cfg, st, tok)) == Carried(st) + [Word(TermBytes(cfg.svc, cfg.prefix, tok.word), st.position + 1)]
  {
    var mid := OnDelimiter(st, tok.delim, cfg.glue);
    var term := TermBytes(cfg.svc, cfg.prefix, tok.word);
    var w := Word(term, st.position + 1);
    DelimiterKeepsWords(st, tok.delim, cfg.glue);
    WordAppendsWord(mid, term, cfg.autoExpandSize);
    assert Carried(Step(cfg, st, tok)) == Carried(mid) + [w];
    MultisetSnoc(Carried(mid), Carried(st), w);
  }

  lemma MultisetSnoc(x: seq<Word>, y: seq<Word>, w: Word)
    requires multiset(x) == multiset(y)
    ensures multiset(x + [w]) == multiset(y) + multiset{w}
  {
  }

  lemma ExpectedWordsSnoc(svc: TextServices, prefix: seq<CodeUnit>, toks: seq<Token>)
    requires |toks| > 0
    ensures ExpectedWords(svc, prefix, toks)
         == ExpectedWords(svc, prefix, toks[..|toks| - 1]) + [Word(TermBytes(svc, prefix, toks[|toks| - 1].word), |toks|)]
  {
  }

  /** The scan carries every word exactly once, each with its own position
      (as a multiset); under the corrected glue rule, also in input order. */
  lemma {:induction false} ScanKeepsWords(cfg: Config, toks: seq<Token>)
    ensures Inv(Scan(cfg, toks))
    ensures multiset(Carried(Scan(cfg, toks))) == multiset(ExpectedWords(cfg.svc, cfg.prefix, toks))
    ensures cfg.glue == QuoteAware ==> Carried(Scan(cfg, toks)) == ExpectedWords(cfg.svc, cfg.prefix, toks)
    decreases |toks|
  {
    if |toks| > 0 {
      var front := toks[..|toks| - 1];
      var tok := toks[|toks| - 1];
      var st := Scan(cfg, front);
      ScanKeepsWords(cfg, front);
      StepAppendsWord(cfg, st, tok);
      var w := Word(TermBytes(cfg.svc, cfg.prefix, tok.word), |toks|);
      var before := ExpectedWords(cfg.svc, cfg.prefix, front);
      ExpectedWordsSnoc(cfg.svc, cfg.prefix, toks);
      var next := Step(cfg, st, tok);
      assert Scan(cfg, toks) == next;
      assert multiset(Carried(next)) == multiset(Carried(st)) + multiset{w};
      assert multiset(Carried(st)) == multiset(before);
      assert multiset(before + [w]) == multiset(before) + multiset{w};
    }
  }

  lemma {:induction false} RetagKeepsWords(qs: seq<Query>, autoExpandSize: int)
    requires forall q :: q in qs ==> NotEmptyGroup(q)
    ensures WordsOfAll(Retag(qs, autoExpandSize)) == WordsOfAll(qs)
    decreases |qs|
  {
    if |qs| > 0 {
      var front := qs[..|qs| - 1];
      var last := qs[|qs| - 1];
      assert qs == front + [last];
      assert last in qs;
      RetagKeepsWords(front, autoExpandSize);
      var r := Retag(qs, autoExpandSize);
      assert r == Retag(front, autoExpandSize) + [SetOp(last, ExpandOp(autoExpandSize, last.term))];
      WordsOfAllSnoc(Retag(front, autoExpandSize), SetOp(last, ExpandOp(autoExpandSize, last.term)));
      SetOpKeepsWords(last, ExpandOp(autoExpandSize, last.term));
    }
  }

  /** The end-of-input flush keeps the carried words and their order. */
  lemma FinishKeepsWords(st: State, autoExpandSize: int)
    requires Inv(st)
    ensures WordsOfAll(Finish(st, autoExpandSize)) == Carried(st)
  {
    if st.inPhrase {
      ClosePhraseKeepsWords(st);
      assert Retag([], autoExpandSize) == [];
      assert Finish(st, autoExpandSize) == ClosePhrase(st).queries;
    } else {
      RetagKeepsWords(st.phraseQueries, autoExpandSize);
      WordsOfAllAppend(st.queries, Retag(st.phraseQueries, autoExpandSize));
    }
  }

  lemma CjkQueriesCarryCjkWords(text: seq<CodeUnit>)
    ensures WordsOfAll(CjkQueries(text)) == CjkWords(text)
  {
    var qs, units := CjkQueries(text), CjkUnits(text);
    assert forall i :: 0 <= i < |qs| ==> qs[i] == TermQuery(EncodeUnit(units[i]), StartsWith, 0);
    WordsOfTerms(qs);
    var words := seq(|qs|, i requires 0 <= i < |qs| => Word(qs[i].term, qs[i].pos));
    assert words == CjkWords(text) by {
      assert |words| == |CjkWords(text)|;
      forall i | 0 <= i < |words| ensures words[i] == CjkWords(text)[i] {
        assert qs[i].term == EncodeUnit(units[i]) && qs[i].pos == 0;
      }
    }
  }

  lemma ParseCarries(cfg: Config, text: seq<CodeUnit>, seg: Segmentation)
    requires |text| > 0
    requires Segments(seg, ReplaceUnderscores(text))
    ensures WordsOf(ParseEveryWord(cfg, text, seg))
         == Carried(Scan(cfg, seg.tokens)) + CjkWords(ReplaceUnderscores(text))
  {
    var st := Scan(cfg, seg.tokens);
    var t := ReplaceUnderscores(text);
    ScanKeepsWords(cfg, seg.tokens);
    FinishKeepsWords(st, cfg.autoExpandSize);
    WordsOfAllAppend(WordQueries(cfg, seg.tokens), CjkQueries(t));
    CjkQueriesCarryCjkWords(t);
  }

  /** For every input, whether or not words touch: the source's parse
      carries the words of its word queries, then the CJK terms in text
      order; the final And or single-query choice adds and drops nothing. */
  lemma ParseWordsThenCjk(cfg: Config, text: seq<CodeUnit>, seg: Segmentation)
    requires |text| > 0
    requires Segments(seg, ReplaceUnderscores(text))
    ensures WordsOf(Parse(cfg, text, seg))
         == WordsOfAll(BoundaryQueries(cfg, seg.tokens)) + CjkWords(ReplaceUnderscores(text))
  {
    var t := ReplaceUnderscores(text);
    WordsOfAllAppend(BoundaryQueries(cfg, seg.tokens), CjkQueries(t));
    CjkQueriesCarryCjkWords(t);
  }

  /** The parse that emits every word, under either glue rule, carries
      every word once. */
  lemma ParseWords(cfg: Config, text: seq<CodeUnit>, seg: Segmentation, q: Query)
    requires |text| > 0
    requires Segments(seg, ReplaceUnderscores(text))
    requires q == ParseEveryWord(cfg, text, seg)
    ensures multiset(WordsOf(q))
         == multiset(ExpectedWords(cfg.svc, cfg.prefix, seg.tokens) + CjkWords(ReplaceUnderscores(text)))
  {
    var cjk := CjkWords(ReplaceUnderscores(text));
    var carried := Carried(Scan(cfg, seg.tokens));
    var expected := ExpectedWords(cfg.svc, cfg.prefix, seg.tokens);
    assert WordsOf(q) == carried + cjk by {
      ParseCarries(cfg, text, seg);
    }
    assert multiset(carried) == multiset(expected) by {
      ScanKeepsWords(cfg, seg.tokens);
    }
    calc {
      multiset(WordsOf(q));
      multiset(carried + cjk);
      multiset(carried) + multiset(cjk);
      multiset(expected) + multiset(cjk);
      multiset(expected + cjk);
    }
  }

  /** Every word of the input reaches the parsed query exactly once, with
      its own term bytes and its position in the input (1, 2, ... over the
      whole text, never reset by quotes or phrases), followed by one word
      per CJK code unit. The source's glue rule may reorder them. This holds
      when no two words touch; `TouchingWordsLoseFirst` shows a word lost
      when they do. */
  lemma ParseQueryKeepsEveryWord(p: QueryParser, svc: TextServices, text: seq<CodeUnit>, prefix: seq<CodeUnit>,
                                 seg: Segmentation, q: Query)
    requires |text| > 0
    requires Segments(seg, ReplaceUnderscores(text))
    requires Separated(seg.tokens)
    requires q == ParseQuery(p, svc, text, prefix, seg)
    ensures multiset(WordsOf(q)) == multiset(ExpectedWords(svc, prefix, seg.tokens) + CjkWords(ReplaceUnderscores(text)))
  {
    var cfg := Config(p.autoExpandSize, prefix, svc, AsWritten);
    assert q == ParseEveryWord(cfg, text, seg) by {
      ParseSeparated(cfg, text, seg);
    }
    ParseWords(cfg, text, seg, q);
  }

  /** With the corrected glue rule the words of the parsed query appear in
      input order: positions 1, 2, ..., n, then the CJK terms in text order.
      In particular the children of every phrase have increasing positions. */
  lemma CorrectedParseKeepsWordOrder(p: QueryParser, svc: TextServices, text: seq<CodeUnit>, prefix: seq<CodeUnit>,
                                  seg: Segmentation, q: Query)
    requires |text| > 0
    requires Segments(seg, ReplaceUnderscores(text))
    requires q == ParseQueryCorrected(p, svc, text, prefix, seg)
    ensures WordsOf(q) == ExpectedWords(svc, prefix, seg.tokens) + CjkWords(ReplaceUnderscores(text))
  {
    ParseInOrder(Config(p.autoExpandSize, prefix, svc, QuoteAware), text, seg, q);
  }

  /** The parse that emits every word, under the corrected glue rule, keeps
      the input order. */
  lemma ParseInOrder(cfg: Config, text: seq<CodeUnit>, seg: Segmentation, q: Query)
    requires |text| > 0
    requires Segments(seg, ReplaceUnderscores(text))
    requires cfg.glue == QuoteAware
    requires q == ParseEveryWord(cfg, text, seg)
    ensures WordsOf(q) == ExpectedWords(cfg.svc, cfg.prefix, seg.tokens) + CjkWords(ReplaceUnderscores(text))
  {
    var carried := Carried(Scan(cfg, seg.tokens));
    assert carried == ExpectedWords(cfg.svc, cfg.prefix, seg.tokens) by {
      ScanKeepsWords(cfg, seg.tokens);
    }
    ParseCarries(cfg, text, seg);
  }

  /** Outside quotes the corrected glue rule changes nothing: when no
      delimiter holds a quote, both rules scan to the same state and no
      quote flag is ever set. */
  lemma {:induction false} RulesAgreeWithoutQuotes(cfg: Config, toks: seq<Token>)
    requires forall k :: 0 <= k < |toks| ==> DoubleQuote !in toks[k].delim && SingleQuote !in toks[k].delim
    ensures Scan(cfg.(glue := AsWritten), toks) == Scan(cfg.(glue := QuoteAware), toks)
    ensures !Scan(cfg, toks).inDoubleQuotes && !Scan(cfg, toks).inSingleQuotes
    decreases |toks|
  {
    if |toks| > 0 {
      var init := toks[..|toks| - 1];
      var tok := toks[|toks| - 1];
      RulesAgreeWithoutQuotes(cfg, init);
      RulesAgreeWithoutQuotes(cfg.(glue := AsWritten), init);
      var st := Scan(cfg.(glue := AsWritten), init);
      assert Scan(cfg.(glue := QuoteAware), init) == st;
      assert OnDelimiter(st, tok.delim, AsWritten) == OnDelimiter(st, tok.delim, QuoteAware);
    }
  }
}

=== FILE: query_parser_scenarios.dfy ===
/** The parser on small token sequences: how glue, whitespace and quote
    delimiters shape the tree, what happens to a quote at the very end of
    the input, the single-word query, and the out-of-order phrase the
    source's glue rule builds inside quotes. */
module QueryParserScenarios {
  import opened Unicode
  import opened EngineQueries
  import opened QueryParsing

  lemma ScanOne(cfg: Config, t0: Token)
    ensures Scan(cfg, [t0]) == Step(cfg, Initial, t0)
  {
    assert [t0][..0] == [];
  }

  lemma ScanTwo(cfg: Config, t0: Token, t1: Token)
    ensures Scan(cfg, [t0, t1]) == Step(cfg, Step(cfg, Initial, t0), t1)
  {
    assert [t0, t1][..1] == [t0];
    ScanOne(cfg, t0);
  }

  lemma ScanThree(cfg: Config, t0: Token, t1: Token, t2: Token)
    ensures Scan(cfg, [t0, t1, t2]) == Step(cfg, Scan(cfg, [t0, t1]), t2)
  {
    assert [t0, t1, t2][..2] == [t0, t1];
  }

  lemma ScanFour(cfg: Config, t0: Token, t1: Token, t2: Token, t3: Token)
    ensures Scan(cfg, [t0, t1, t2, t3]) == Step(cfg, Scan(cfg, [t0, t1, t2]), t3)
  {
    assert [t0, t1, t2, t3][..3] == [t0, t1, t2];
  }

  /** Two words joined by glue (`a-b`, `a/b`) become one Phrase of Equal
      terms: the first word, already a top-level term, is moved into the
      phrase and keeps its position. */
  lemma GluedWordsFormPhrase(cfg: Config, a: seq<CodeUnit>, glue: seq<CodeUnit>, b: seq<CodeUnit>)
    requires IsGlue(glue)
    ensures WordQueries(cfg, [Token([], a), Token(glue, b)])
         == [GroupQuery([TermQuery(WordTerm(cfg, a), Equal, 1), TermQuery(WordTerm(cfg, b), Equal, 2)], Phrase)]
  {
    var n, ta, tb := cfg.autoExpandSize, WordTerm(cfg, a), WordTerm(cfg, b);
    var t0, t1 := Token([], a), Token(glue, b);
    var s1 := Initial.(position := 1, queries := [TermQuery(ta, ExpandOp(n, ta), 1)]);
    var m := Initial.(inPhrase := true, position := 1, phraseQueries := [TermQuery(ta, Equal, 1)]);
    var ab := [TermQuery(ta, Equal, 1), TermQuery(tb, Equal, 2)];
    var s2 := Initial.(inPhrase := true, position := 2, phraseQueries := ab);
    ScanTwo(cfg, t0, t1);
    StepEmits(cfg, Initial, t0, Initial);
    assert Step(cfg, Initial, t0) == s1;
    GluePulls(s1, glue, cfg.glue);
    assert PullLast(s1).(inPhrase := true) == m;
    StepBuffers(cfg, s1, t1, m);
    assert Scan(cfg, [t0, t1]) == s2;
    assert Finish(s2, n) == [] + [GroupQuery(ab, Phrase)];
  }

  /** With every boundary handled on its own, words that touch with no
      delimiter between them stay two top-level terms: the end of the first
      word emits it, and the empty delimiter is not examined. */
  lemma AdjacentWordsStaySeparate(cfg: Config, a: seq<CodeUnit>, b: seq<CodeUnit>)
    ensures WordQueries(cfg, [Token([], a), Token([], b)])
         == [TermQuery(WordTerm(cfg, a), ExpandOp(cfg.autoExpandSize, WordTerm(cfg, a)), 1),
             TermQuery(WordTerm(cfg, b), ExpandOp(cfg.autoExpandSize, WordTerm(cfg, b)), 2)]
  {
    var n, ta, tb := cfg.autoExpandSize, WordTerm(cfg, a), WordTerm(cfg, b);
    var t0, t1 := Token([], a), Token([], b);
    var s1 := Initial.(position := 1, queries := [TermQuery(ta, ExpandOp(n, ta), 1)]);
    var s2 := s1.(position := 2, queries := s1.queries + [TermQuery(tb, ExpandOp(n, tb), 2)]);
    ScanTwo(cfg, t0, t1);
    StepEmits(cfg, Initial, t0, Initial);
    assert Step(cfg, Initial, t0) == s1;
    StepEmits(cfg, s1, t1, s1);
    assert Scan(cfg, [t0, t1]) == s2;
    assert Retag([], n) == [];
    assert Finish(s2, n) == s2.queries;
  }

  /** In the source's loop the boundary between touching words is taken as
      the start of the second only, so the first word is never emitted and
      its text is examined as the delimiter before the second. A first word
      that reads as glue (`カナabc`: a katakana word, then a Latin one) makes
      the query a Phrase of the second word alone, at position 1. */
  lemma TouchingWordsLoseFirst(p: QueryParser, svc: TextServices, text: seq<CodeUnit>, prefix: seq<CodeUnit>,
                               seg: Segmentation, a: seq<CodeUnit>, b: seq<CodeUnit>)
    requires |text| > 0
    requires Segments(seg, ReplaceUnderscores(text))
    requires seg.tokens == [Token([], a), Token([], b)]
    requires IsGlue(a)
    requires CjkUnits(ReplaceUnderscores(text)) == []
    ensures ParseQuery(p, svc, text, prefix, seg) == GroupQuery([TermQuery(TermBytes(svc, prefix, b), Equal, 1)], Phrase)
  {
    var cfg := Config(p.autoExpandSize, prefix, svc, AsWritten);
    TouchingWordsBoundary(cfg, a, b);
    ParseWithoutCjk(cfg, text, seg);
  }

  lemma TouchingWordsBoundary(cfg: Config, a: seq<CodeUnit>, b: seq<CodeUnit>)
    requires IsGlue(a)
    ensures BoundaryQueries(cfg, [Token([], a), Token([], b)]) == [GroupQuery([TermQuery(WordTerm(cfg, b), Equal, 1)], Phrase)]
  {
    var toks := [Token([], a), Token([], b)];
    var marked := Initial.(inPhrase := true);
    assert toks[..1] == [Token([], a)] && toks[..1][..0] == [];
    assert BoundaryScan(cfg, toks[..1]) == Loop(Initial, [], Some(a));
    GlueMarks(Initial, a, cfg.glue);
    assert BoundaryScan(cfg, toks) == Loop(marked, a, Some(b));
    assert OnWord(marked, WordTerm(cfg, b), cfg.autoExpandSize)
        == marked.(position := 1, phraseQueries := [TermQuery(WordTerm(cfg, b), Equal, 1)]);
  }

  /** In the source's loop, a double quote before a word that touches the
      next: the touching start examines the quote again together with the
      first word, which closes the quote just opened, so the first query is
      an empty Phrase and the first word is lost. */
  lemma QuoteThenTouchingWords(cfg: Config, open: seq<CodeUnit>, a: seq<CodeUnit>, b: seq<CodeUnit>)
    requires DoubleQuote in open
    ensures BoundaryQueries(cfg, [Token(open, a), Token([], b)])
         == [GroupQuery([], Phrase), TermQuery(WordTerm(cfg, b), ExpandOp(cfg.autoExpandSize, WordTerm(cfg, b)), 1)]
  {
    var toks := [Token(open, a), Token([], b)];
    var quoted := Initial.(inDoubleQuotes := true);
    var closed := Initial.(queries := [GroupQuery([], Phrase)]);
    assert toks[..1] == [Token(open, a)] && toks[..1][..0] == [];
    OpensDoubleQuote(Initial, open, cfg.glue);
    assert BoundaryScan(cfg, toks[..1]) == Loop(quoted, open, Some(a));
    assert DoubleQuote in open + a;
    ClosesDoubleQuote(quoted, open + a, cfg.glue);
    assert ClosePhrase(quoted).(inDoubleQuotes := false) == closed;
    assert BoundaryScan(cfg, toks) == Loop(closed, open + a, Some(b));
    assert Retag([], cfg.autoExpandSize) == [];
  }

  /** Words separated by whitespace stay separate top-level terms, each
      tagged by the auto-expand rule. */
  lemma BlankSeparatedWords(cfg: Config, a: seq<CodeUnit>, blank: seq<CodeUnit>, b: seq<CodeUnit>)
    requires IsBlank(blank)
    ensures WordQueries(cfg, [Token([], a), Token(blank, b)])
         == [TermQuery(WordTerm(cfg, a), ExpandOp(cfg.autoExpandSize, WordTerm(cfg, a)), 1),
             TermQuery(WordTerm(cfg, b), ExpandOp(cfg.autoExpandSize, WordTerm(cfg, b)), 2)]
  {
    var n, ta, tb := cfg.autoExpandSize, WordTerm(cfg, a), WordTerm(cfg, b);
    var t0, t1 := Token([], a), Token(blank, b);
    var s1 := Initial.(position := 1, queries := [TermQuery(ta, ExpandOp(n, ta), 1)]);
    var s2 := s1.(position := 2, queries := s1.queries + [TermQuery(tb, ExpandOp(n, tb), 2)]);
    ScanTwo(cfg, t0, t1);
    StepEmits(cfg, Initial, t0, Initial);
    assert Step(cfg, Initial, t0) == s1;
    BlankPasses(s1, blank, cfg.glue);
    StepEmits(cfg, s1, t1, s1);
    assert Scan(cfg, [t0, t1]) == s2;
    assert Retag([], n) == [];
    assert Finish(s2, n) == s2.queries;
  }

  /** `"a b" c`: the quoted words become one Phrase of Equal terms at
      positions 1 and 2; the word after the closing quote is a top-level
      term at position 3. A single quote behaves the same way. */
  lemma QuotedPhraseThenWord(cfg: Config, open: seq<CodeUnit>, a: seq<CodeUnit>,
                             blank: seq<CodeUnit>, b: seq<CodeUnit>, close: seq<CodeUnit>, c: seq<CodeUnit>)
    requires || (DoubleQuote in open && DoubleQuote in close)
             || (&& SingleQuote in open && SingleQuote in close
                 && DoubleQuote !in open && DoubleQuote !in close)
    requires IsBlank(blank)
    ensures WordQueries(cfg, [Token(open, a), Token(blank, b), Token(close, c)])
         == [GroupQuery([TermQuery(WordTerm(cfg, a), Equal, 1), TermQuery(WordTerm(cfg, b), Equal, 2)], Phrase),
             TermQuery(WordTerm(cfg, c), ExpandOp(cfg.autoExpandSize, WordTerm(cfg, c)), 3)]
  {
    var n, ta, tb, tc := cfg.autoExpandSize, WordTerm(cfg, a), WordTerm(cfg, b), WordTerm(cfg, c);
    var t0, t1, t2 := Token(open, a), Token(blank, b), Token(close, c);
    var ab := [TermQuery(ta, Equal, 1), TermQuery(tb, Equal, 2)];
    var m := Initial.(position := 2, queries := [GroupQuery(ab, Phrase)]);
    var s3 := m.(position := 3, queries := m.queries + [TermQuery(tc, ExpandOp(n, tc), 3)]);
    var s2 := QuotedPair(cfg, open, a, blank, b);
    ScanThree(cfg, t0, t1, t2);
    if DoubleQuote in open {
      ClosesDoubleQuote(s2, close, cfg.glue);
    } else {
      ClosesSingleQuote(s2, close, cfg.glue);
    }
    assert OnDelimiter(s2, close, cfg.glue) == m;
    StepEmits(cfg, s2, t2, m);
    assert Scan(cfg, [t0, t1, t2]) == s3;
    assert Retag([], n) == [];
    assert Finish(s3, n) == s3.queries;
  }

  /** The state after `"a b` (or `'a b`): the quote is open and both words
      are buffered as Equal terms at positions 1 and 2. */
  lemma QuotedPair(cfg: Config, open: seq<CodeUnit>, a: seq<CodeUnit>, blank: seq<CodeUnit>, b: seq<CodeUnit>)
    returns (s2: State)
    requires DoubleQuote in open || SingleQuote in open
    requires IsBlank(blank)
    ensures s2 == Scan(cfg, [Token(open, a), Token(blank, b)])
    ensures s2 == (if DoubleQuote in open then Initial.(inDoubleQuotes := true) else Initial.(inSingleQuotes := true))
                  .(position := 2, phraseQueries := [TermQuery(WordTerm(cfg, a), Equal, 1), TermQuery(WordTerm(cfg, b), Equal, 2)])
  {
    var ta, tb := WordTerm(cfg, a), WordTerm(cfg, b);
    var t0, t1 := Token(open, a), Token(blank, b);
    var d1 := if DoubleQuote in open then Initial.(inDoubleQuotes := true) else Initial.(inSingleQuotes := true);
    var s1 := d1.(position := 1, phraseQueries := [TermQuery(ta, Equal, 1)]);
    s2 := d1.(position := 2, phraseQueries := [TermQuery(ta, Equal, 1), TermQuery(tb, Equal, 2)]);
    ScanTwo(cfg, t0, t1);
    if DoubleQuote in open {
      OpensDoubleQuote(Initial, open, cfg.glue);
    } else {
      OpensSingleQuote(Initial, open, cfg.glue);
    }
    StepBuffers(cfg, Initial, t0, d1);
    assert Step(cfg, Initial, t0) == s1;
    BlankPasses(s1, blank, cfg.glue);
    StepBuffers(cfg, s1, t1, s1);
  }

  /** A delimiter after the last word is never examined, so a closing quote
      at the very end of the input does not close the phrase: the quoted
      words fall back to top-level terms re-tagged by the auto-expand rule,
      and the result is their And. */
  lemma ClosingQuoteAtEndIsIgnored(p: QueryParser, svc: TextServices, text: seq<CodeUnit>, prefix: seq<CodeUnit>,
                                   seg: Segmentation, open: seq<CodeUnit>, a: seq<CodeUnit>,
                                   blank: seq<CodeUnit>, b: seq<CodeUnit>)
    requires |text| > 0
    requires Segments(seg, ReplaceUnderscores(text))
    requires seg.tokens == [Token(open, a), Token(blank, b)]
    requires DoubleQuote in open
    requires IsBlank(blank)
    requires CjkUnits(ReplaceUnderscores(text)) == []
    ensures ParseQuery(p, svc, text, prefix, seg)
         == GroupQuery([TermQuery(TermBytes(svc, prefix, a), ExpandOp(p.autoExpandSize, TermBytes(svc, prefix, a)), 1),
                        TermQuery(TermBytes(svc, prefix, b), ExpandOp(p.autoExpandSize, TermBytes(svc, prefix, b)), 2)], And)
  {
    var cfg := Config(p.autoExpandSize, prefix, svc, AsWritten);
    UnclosedQuoteBoundary(cfg, open, a, blank, b);
    ParseWithoutCjk(cfg, text, seg);
  }

  lemma UnclosedQuoteBoundary(cfg: Config, open: seq<CodeUnit>, a: seq<CodeUnit>, blank: seq<CodeUnit>, b: seq<CodeUnit>)
    requires DoubleQuote in open
    requires IsBlank(blank)
    ensures BoundaryQueries(cfg, [Token(open, a), Token(blank, b)])
         == [TermQuery(WordTerm(cfg, a), ExpandOp(cfg.autoExpandSize, WordTerm(cfg, a)), 1),
             TermQuery(WordTerm(cfg, b), ExpandOp(cfg.autoExpandSize, WordTerm(cfg, b)), 2)]
  {
    assert [Token(open, a), Token(blank, b)][1].delim != [];
    BoundaryQueriesSeparated(cfg, [Token(open, a), Token(blank, b)]);
    UnclosedQuoteRetagged(cfg, open, a, blank, b);
  }

  /** The quote opened before `a` is still open when the input ends. */
  lemma UnclosedQuoteRetagged(cfg: Config, open: seq<CodeUnit>, a: seq<CodeUnit>, blank: seq<CodeUnit>, b: seq<CodeUnit>)
    requires DoubleQuote in open
    requires IsBlank(blank)
    ensures WordQueries(cfg, [Token(open, a), Token(blank, b)])
         == [TermQuery(WordTerm(cfg, a), ExpandOp(cfg.autoExpandSize, WordTerm(cfg, a)), 1),
             TermQuery(WordTerm(cfg, b), ExpandOp(cfg.autoExpandSize, WordTerm(cfg, b)), 2)]
  {
    var n, ta, tb := cfg.autoExpandSize, WordTerm(cfg, a), WordTerm(cfg, b);
    var t0, t1 := Token(open, a), Token(blank, b);
    var d1 := Initial.(inDoubleQuotes := true);
    var s1 := d1.(position := 1, phraseQueries := [TermQuery(ta, Equal, 1)]);
    var buffer := [TermQuery(ta, Equal, 1), TermQuery(tb, Equal, 2)];
    var s2 := Initial.(inDoubleQuotes := true, position := 2, phraseQueries := buffer);
    ScanTwo(cfg, t0, t1);
    OpensDoubleQuote(Initial, open, cfg.glue);
    StepBuffers(cfg, Initial, t0, d1);
    assert Step(cfg, Initial, t0) == s1;
    BlankPasses(s1, blank, cfg.glue);
    StepBuffers(cfg, s1, t1, s1);
    assert Scan(cfg, [t0, t1]) == s2;
    assert Retag(buffer, n) == [TermQuery(ta, ExpandOp(n, ta), 1), TermQuery(tb, ExpandOp(n, tb), 2)];
    assert Finish(s2, n) == [] + Retag(buffer, n);
  }

  /** A query of one word with nothing before it is that word's term at
      position 1, Equal or StartsWith by the auto-expand rule, whatever
      follows the word. */
  lemma SingleWordQuery(p: QueryParser, svc: TextServices, text: seq<CodeUnit>, prefix: seq<CodeUnit>,
                        seg: Segmentation, w: seq<CodeUnit>)
    requires |text| > 0
    requires Segments(seg, ReplaceUnderscores(text))
    requires seg.tokens == [Token([], w)]
    requires CjkUnits(ReplaceUnderscores(text)) == []
    ensures ParseQuery(p, svc, text, prefix, seg)
         == TermQuery(TermBytes(svc, prefix, w), ExpandOp(p.autoExpandSize, TermBytes(svc, prefix, w)), 1)
  {
    var cfg := Config(p.autoExpandSize, prefix, svc, AsWritten);
    OneWordBoundary(cfg, w);
    ParseWithoutCjk(cfg, text, seg);
  }

  lemma OneWordBoundary(cfg: Config, w: seq<CodeUnit>)
    ensures BoundaryQueries(cfg, [Token([], w)]) == [TermQuery(WordTerm(cfg, w), ExpandOp(cfg.autoExpandSize, WordTerm(cfg, w)), 1)]
  {
    BoundaryQueriesSeparated(cfg, [Token([], w)]);
    OneWordQueries(cfg, w);
  }

  lemma OneWordQueries(cfg: Config, w: seq<CodeUnit>)
    ensures WordQueries(cfg, [Token([], w)]) == [TermQuery(WordTerm(cfg, w), ExpandOp(cfg.autoExpandSize, WordTerm(cfg, w)), 1)]
  {
    ScanOne(cfg, Token([], w));
  }

  /** With the default parser a word outside any phrase is prefix-expanded
      exactly when its term has at least three bytes (`power` is, `ab` is
      not); with the threshold set to 0 it never is. */
  lemma DefaultParserExpandsLongWords(cfg: Config, w: seq<CodeUnit>)
    requires cfg.autoExpandSize == NewQueryParser().autoExpandSize
    ensures WordQueries(cfg, [Token([], w)])
         == [TermQuery(WordTerm(cfg, w), if |WordTerm(cfg, w)| >= 3 then StartsWith else Equal, 1)]
    ensures WordQueries(cfg.(autoExpandSize := SetAutoExpandSize(NewQueryParser(), 0).autoExpandSize), [Token([], w)])
         == [TermQuery(WordTerm(cfg, w), Equal, 1)]
  {
    OneWordQueries(cfg, w);
    OneWordQueries(cfg.(autoExpandSize := 0), w);
  }

  /** Text without CJK code units is parsed from its words alone. */
  lemma ParseWithoutCjk(cfg: Config, text: seq<CodeUnit>, seg: Segmentation)
    requires |text| > 0
    requires Segments(seg, ReplaceUnderscores(text))
    requires CjkUnits(ReplaceUnderscores(text)) == []
    ensures Parse(cfg, text, seg) == Combine(BoundaryQueries(cfg, seg.tokens))
  {
    NoCjkAppend(BoundaryQueries(cfg, seg.tokens), ReplaceUnderscores(text));
  }

  lemma NoCjkAppend(words: seq<Query>, t: seq<CodeUnit>)
    requires CjkUnits(t) == []
    ensures words + CjkQueries(t) == words
  {
    assert |CjkQueries(t)| == 0;
  }

  /** Every underscore has become a space before segmentation, so no
      delimiter or word contains one; an underscore between two words is
      whitespace, never glue. */
  lemma UnderscoreNeverGlues(text: seq<CodeUnit>, seg: Segmentation)
    requires Segments(seg, ReplaceUnderscores(text))
    ensures forall k :: 0 <= k < |seg.tokens| ==> Underscore !in seg.tokens[k].delim && Underscore !in seg.tokens[k].word
  {
    RenderedPartsOccur(seg.tokens);
  }

  lemma {:induction false} RenderedPartsOccur(toks: seq<Token>)
    ensures forall k, c :: 0 <= k < |toks| && (c in toks[k].delim || c in toks[k].word) ==> c in RenderTokens(toks)
    decreases |toks|
  {
    if |toks| > 0 {
      RenderedPartsOccur(toks[..|toks| - 1]);
    }
  }

  /** The source's glue rule inside quotes (`foo "bar-baz`): the glue pulls
      `foo`, a top-level term from before the quote, into the quoted
      phrase behind `bar`, so the phrase's positions run 2, 1, 3. */
  lemma GlueInQuotesReordersPhrase(cfg: Config, a: seq<CodeUnit>, open: seq<CodeUnit>, b: seq<CodeUnit>,
                                   glue: seq<CodeUnit>, c: seq<CodeUnit>)
    requires cfg.glue == AsWritten
    requires DoubleQuote in open
    requires IsGlue(glue)
    ensures WordQueries(cfg, [Token([], a), Token(open, b), Token(glue, c)])
         == [GroupQuery([TermQuery(WordTerm(cfg, b), Equal, 2), TermQuery(WordTerm(cfg, a), Equal, 1),
                         TermQuery(WordTerm(cfg, c), Equal, 3)], Phrase)]
    ensures WordQueries(cfg, [Token([], a), Token(open, b), Token(glue, c)])[0].subs[0].pos
          > WordQueries(cfg, [Token([], a), Token(open, b), Token(glue, c)])[0].subs[1].pos
  {
    var n, ta, tb, tc := cfg.autoExpandSize, WordTerm(cfg, a), WordTerm(cfg, b), WordTerm(cfg, c);
    var t0, t1, t2 := Token([], a), Token(open, b), Token(glue, c);
    var s1 := Initial.(position := 1, queries := [TermQuery(ta, ExpandOp(n, ta), 1)]);
    var s2 := s1.(inDoubleQuotes := true, position := 2, phraseQueries := [TermQuery(tb, Equal, 2)]);
    var m := s2.(queries := [], inPhrase := true, phraseQueries := [TermQuery(tb, Equal, 2), TermQuery(ta, Equal, 1)]);
    var bac := [TermQuery(tb, Equal, 2), TermQuery(ta, Equal, 1), TermQuery(tc, Equal, 3)];
    var s3 := s2.(queries := [], inPhrase := true, position := 3, phraseQueries := bac);
    ScanTwo(cfg, t0, t1);
    ScanThree(cfg, t0, t1, t2);
    StepEmits(cfg, Initial, t0, Initial);
    assert Step(cfg, Initial, t0) == s1;
    OpensDoubleQuote(s1, open, cfg.glue);
    StepBuffers(cfg, s1, t1, s1.(inDoubleQuotes := true));
    assert Scan(cfg, [t0, t1]) == s2;
    GluePulls(s2, glue, cfg.glue);
    assert PullLast(s2).(inPhrase := true) == m;
    StepBuffers(cfg, s2, t2, m);
    assert Scan(cfg, [t0, t1, t2]) == s3;
    assert Finish(s3, n) == [] + [GroupQuery(bac, Phrase)];
  }

  /** The same input through the source's boundary loop: every word after
      the first has a delimiter before it, so the loop builds the same
      out-of-order phrase. */
  lemma GlueInQuotesBoundary(cfg: Config, a: seq<CodeUnit>, open: seq<CodeUnit>, b: seq<CodeUnit>,
                             glue: seq<CodeUnit>, c: seq<CodeUnit>)
    requires cfg.glue == AsWritten
    requires DoubleQuote in open
    requires IsGlue(glue)
    ensures BoundaryQueries(cfg, [Token([], a), Token(open, b), Token(glue, c)])
         == [GroupQuery([TermQuery(WordTerm(cfg, b), Equal, 2), TermQuery(WordTerm(cfg, a), Equal, 1),
                         TermQuery(WordTerm(cfg, c), Equal, 3)], Phrase)]
  {
    var toks := [Token([], a), Token(open, b), Token(glue, c)];
    assert toks[1].delim != [] && toks[2].delim != [];
    BoundaryQueriesSeparated(cfg, toks);
    GlueInQuotesReordersPhrase(cfg, a, open, b, glue, c);
  }

  /** The corrected glue rule on the same input keeps `foo` a top-level
      term and makes the quoted glued words one phrase at positions 2, 3. */
  lemma QuoteAwareGlueKeepsPhraseInOrder(cfg: Config, a: seq<CodeUnit>, open: seq<CodeUnit>, b: seq<CodeUnit>,
                                         glue: seq<CodeUnit>, c: seq<CodeUnit>)
    requires cfg.glue == QuoteAware
    requires DoubleQuote in open
    requires IsGlue(glue)
    ensures WordQueries(cfg, [Token([], a), Token(open, b), Token(glue, c)])
         == [TermQuery(WordTerm(cfg, a), ExpandOp(cfg.autoExpandSize, WordTerm(cfg, a)), 1),
             GroupQuery([TermQuery(WordTerm(cfg, b), Equal, 2), TermQuery(WordTerm(cfg, c), Equal, 3)], Phrase)]
  {
    var n, ta, tb, tc := cfg.autoExpandSize, WordTerm(cfg, a), WordTerm(cfg, b), WordTerm(cfg, c);
    var t0, t1, t2 := Token([], a), Token(open, b), Token(glue, c);
    var s1 := Initial.(position := 1, queries := [TermQuery(ta, ExpandOp(n, ta), 1)]);
    var s2 := s1.(inDoubleQuotes := true, position := 2, phraseQueries := [TermQuery(tb, Equal, 2)]);
    var bc := [TermQuery(tb, Equal, 2), TermQuery(tc, Equal, 3)];
    var s3 := s2.(inPhrase := true, position := 3, phraseQueries := bc);
    ScanTwo(cfg, t0, t1);
    ScanThree(cfg, t0, t1, t2);
    StepEmits(cfg, Initial, t0, Initial);
    assert Step(cfg, Initial, t0) == s1;
    OpensDoubleQuote(s1, open, cfg.glue);
    StepBuffers(cfg, s1, t1, s1.(inDoubleQuotes := true));
    assert Scan(cfg, [t0, t1]) == s2;
    GlueMarks(s2, glue, cfg.glue);
    StepBuffers(cfg, s2, t2, s2.(inPhrase := true));
    assert Scan(cfg, [t0, t1, t2]) == s3;
    assert Finish(s3, n) == s1.queries + [GroupQuery(bc, Phrase)];
  }

  /** `"a-b c-d`: the whitespace closes the glued group `a-b` into a Phrase
      while the quote is still open; the next glue pulls that Phrase back
      and re-tags it Equal, leaving a node that is neither a term nor a
      group inside the final phrase. */
  lemma GlueInQuotesPullsPhraseNode(cfg: Config, open: seq<CodeUnit>, a: seq<CodeUnit>, g1: seq<CodeUnit>,
                                    b: seq<CodeUnit>, blank: seq<CodeUnit>, c: seq<CodeUnit>,
                                    g2: seq<CodeUnit>, d: seq<CodeUnit>)
    requires cfg.glue == AsWritten
    requires DoubleQuote in open
    requires IsGlue(g1) && IsGlue(g2) && IsBlank(blank)
    ensures WordQueries(cfg, [Token(open, a), Token(g1, b), Token(blank, c), Token(g2, d)])
         == [GroupQuery([TermQuery(WordTerm(cfg, c), Equal, 3),
                         Query(Equal, [], 0, [TermQuery(WordTerm(cfg, a), Equal, 1), TermQuery(WordTerm(cfg, b), Equal, 2)]),
                         TermQuery(WordTerm(cfg, d), Equal, 4)], Phrase)]
  {
    var n, td := cfg.autoExpandSize, WordTerm(cfg, d);
    var t0, t1, t2, t3 := Token(open, a), Token(g1, b), Token(blank, c), Token(g2, d);
    var ab := [TermQuery(WordTerm(cfg, a), Equal, 1), TermQuery(WordTerm(cfg, b), Equal, 2)];
    var s3 := QuotedGluedThenBlank(cfg, open, a, g1, b, blank, c);
    var m4 := s3.(queries := [], inPhrase := true, phraseQueries := [TermQuery(WordTerm(cfg, c), Equal, 3), Query(Equal, [], 0, ab)]);
    var s4 := m4.(position := 4, phraseQueries := m4.phraseQueries + [TermQuery(td, Equal, 4)]);
    ScanFour(cfg, t0, t1, t2, t3);
    GluePulls(s3, g2, cfg.glue);
    assert PullLast(s3).(inPhrase := true) == m4;
    StepBuffers(cfg, s3, t3, m4);
    assert Scan(cfg, [t0, t1, t2, t3]) == s4;
    assert s4.phraseQueries == [TermQuery(WordTerm(cfg, c), Equal, 3), Query(Equal, [], 0, ab), TermQuery(td, Equal, 4)];
    assert Finish(s4, n) == [] + [GroupQuery(s4.phraseQueries, Phrase)];
  }

  /** The state after `"a-b c`: the whitespace has closed `a-b` into a
      top-level Phrase while the quote stays open, and `c` is buffered. */
  lemma QuotedGluedThenBlank(cfg: Config, open: seq<CodeUnit>, a: seq<CodeUnit>, g1: seq<CodeUnit>,
                             b: seq<CodeUnit>, blank: seq<CodeUnit>, c: seq<CodeUnit>)
    returns (s3: State)
    requires DoubleQuote in open
    requires IsGlue(g1) && IsBlank(blank)
    ensures s3 == Scan(cfg, [Token(open, a), Token(g1, b), Token(blank, c)])
    ensures s3 == Initial.(inDoubleQuotes := true, position := 3,
                           queries := [GroupQuery([TermQuery(WordTerm(cfg, a), Equal, 1), TermQuery(WordTerm(cfg, b), Equal, 2)], Phrase)],
                           phraseQueries := [TermQuery(WordTerm(cfg, c), Equal, 3)])
  {
    var ta, tb, tc := WordTerm(cfg, a), WordTerm(cfg, b), WordTerm(cfg, c);
    var t0, t1, t2 := Token(open, a), Token(g1, b), Token(blank, c);
    var ab := [TermQuery(ta, Equal, 1), TermQuery(tb, Equal, 2)];
    var d1 := Initial.(inDoubleQuotes := true);
    var s1 := d1.(position := 1, phraseQueries := [TermQuery(ta, Equal, 1)]);
    var s2 := Initial.(inDoubleQuotes := true, inPhrase := true, position := 2, phraseQueries := ab);
    var m3 := s2.(queries := [GroupQuery(ab, Phrase)], phraseQueries := [], inPhrase := false);
    s3 := m3.(position := 3, phraseQueries := [TermQuery(tc, Equal, 3)]);
    ScanTwo(cfg, t0, t1);
    ScanThree(cfg, t0, t1, t2);
    OpensDoubleQuote(Initial, open, cfg.glue);
    StepBuffers(cfg, Initial, t0, d1);
    assert Step(cfg, Initial, t0) == s1;
    GlueMarks(s1, g1, cfg.glue);
    StepBuffers(cfg, s1, t1, s1.(inPhrase := true));
    assert Scan(cfg, [t0, t1]) == s2;
    BlankCloses(s2, blank, cfg.glue);
    assert ClosePhrase(s2).(inPhrase := false) == m3;
    StepBuffers(cfg, s2, t2, m3);
  }
}

=== FILE: query_parsing.dfy ===
/** QueryParser::parseQuery as a pure fold over the word segmentation of the
    query text. The state machine keeps three flags (inside double quotes,
    inside single quotes, inside a glued phrase), the position counter, the
    top-level queries and the phrase buffer. */
module QueryParsing {
  import opened Unicode
  import opened EngineQueries

  /** The parser object: its only field is the auto-expand threshold. */
  datatype QueryParser = QueryParser(autoExpandSize: int)

  /** The constructor: words of at least three bytes are prefix-expanded. */
  function NewQueryParser(): (p: QueryParser)
    ensures p.autoExpandSize == 3
  {
    QueryParser(3)
  }

  /** `setAutoExapandSize`: any int is accepted, zero switches expansion off. */
  function SetAutoExpandSize(p: QueryParser, size: int): (r: QueryParser)
    ensures r.autoExpandSize == size
  {
    p.(autoExpandSize := size)
  }

  /** Library text services the parser calls: the term normaliser (lower
      case, NFKD, drop marks, NFKC) and the UTF-8 encoder. */
  datatype TextServices = TextServices(
    normalize: seq<CodeUnit> -> seq<CodeUnit>,
    toUtf8: seq<CodeUnit> -> seq<Byte>)

  /** The bytes of the term for one word: the prefix followed by the
      normalised word, encoded as UTF-8. */
  function TermBytes(svc: TextServices, prefix: seq<CodeUnit>, word: seq<CodeUnit>): seq<Byte>
  {
    svc.toUtf8(prefix + svc.normalize(word))
  }

  /** The encoder keeps distinct well-formed texts apart, as UTF-8 does.
      Texts with an unpaired surrogate are excluded: `QString::toUtf8`
      writes `?` for one, so such a text can share its bytes with another. */
  ghost predicate DistinctEncodings(svc: TextServices)
  {
    forall a, b :: WellFormed(a) && WellFormed(b) && svc.toUtf8(a) == svc.toUtf8(b) ==> a == b
  }

  /** Under one prefix, two words give the same term exactly when the
      normaliser maps them to the same text; the prefix and the encoding
      neither merge nor split terms. */
  lemma SameTermIffSameForm(svc: TextServices, prefix: seq<CodeUnit>, w1: seq<CodeUnit>, w2: seq<CodeUnit>)
    requires DistinctEncodings(svc)
    requires WellFormed(prefix + svc.normalize(w1)) && WellFormed(prefix + svc.normalize(w2))
    ensures TermBytes(svc, prefix, w1) == TermBytes(svc, prefix, w2) <==> svc.normalize(w1) == svc.normalize(w2)
  {
    var n1, n2 := svc.normalize(w1), svc.normalize(w2);
    if TermBytes(svc, prefix, w1) == TermBytes(svc, prefix, w2) {
      assert prefix + n1 == prefix + n2;
      assert n1 == (prefix + n1)[|prefix|..];
      assert n2 == (prefix + n2)[|prefix|..];
    }
  }

  /** The term bytes of a word under a configuration. */
  function WordTerm(cfg: Config, w: seq<CodeUnit>): seq<Byte>
  {
    TermBytes(cfg.svc, cfg.prefix, w)
  }

  /** One word of the segmented text with the text between the previous
      word's end (or the start of the text) and this word's start. */
  datatype Token = Token(delim: seq<CodeUnit>, word: seq<CodeUnit>)

  /** A word segmentation: the tokens, then whatever follows the last word. */
  datatype Segmentation = Segmentation(tokens: seq<Token>, trailing: seq<CodeUnit>)

  function RenderTokens(toks: seq<Token>): seq<CodeUnit>
  {
    if |toks| == 0 then []
    else RenderTokens(toks[..|toks| - 1]) + toks[|toks| - 1].delim + toks[|toks| - 1].word
  }

  /** `seg` is a segmentation of `text`: putting its pieces back together
      gives the text. */
  predicate Segments(seg: Segmentation, text: seq<CodeUnit>)
  {
    RenderTokens(seg.tokens) + seg.trailing == text
  }

  /** Which rule decides whether a glue delimiter pulls the previous
      top-level query into the phrase buffer: the source's rule, or the
      corrected rule that does so only when no quote is open. */
  datatype GlueRule = AsWritten | QuoteAware

  /** Everything one call of the parser depends on besides the text. */
  datatype Config = Config(autoExpandSize: int, prefix: seq<CodeUnit>, svc: TextServices, glue: GlueRule)

  datatype State = State(
    inDoubleQuotes: bool,
    inSingleQuotes: bool,
    inPhrase: bool,
    position: nat,
    queries: seq<Query>,
    phraseQueries: seq<Query>)

  const Initial := State(false, false, false, 0, [], [])

  /** Words go to the phrase buffer while any of the three flags is set. */
  predicate Grouping(st: State)
  {
    st.inDoubleQuotes || st.inSingleQuotes || st.inPhrase
  }

  /** The op a term gets by the auto-expand rule. */
  function ExpandOp(autoExpandSize: int, term: seq<Byte>): (op: Op)
    ensures op == StartsWith <==> autoExpandSize != 0 && |term| >= autoExpandSize
    ensures op != StartsWith ==> op == Equal
  {
    if autoExpandSize != 0 && |term| >= autoExpandSize then StartsWith else Equal
  }

  /** How the auto-expand rule depends on its inputs: a threshold of 0
      never expands, a negative one expands every term, and for a positive
      one, a term that is expanded stays expanded when it grows. */
  lemma ExpandOpByLength(n: int, t1: seq<Byte>, t2: seq<Byte>)
    ensures n == 0 ==> ExpandOp(n, t1) == Equal
    ensures n < 0 ==> ExpandOp(n, t1) == StartsWith
    ensures n > 0 && |t1| <= |t2| && ExpandOp(n, t1) == StartsWith ==> ExpandOp(n, t2) == StartsWith
    ensures n > 0 && |t1| < n ==> ExpandOp(n, t1) == Equal
  {
  }

  /** Emit the phrase buffer as one Phrase query and empty the buffer. */
  function ClosePhrase(st: State): (r: State)
    ensures r.phraseQueries == []
    ensures |r.queries| == |st.queries| + 1 && r.queries[..|st.queries|] == st.queries
    ensures r.queries[|st.queries|].op == Phrase && r.queries[|st.queries|].subs == st.phraseQueries
    ensures r.inDoubleQuotes == st.inDoubleQuotes && r.inSingleQuotes == st.inSingleQuotes
    ensures r.inPhrase == st.inPhrase && r.position == st.position
  {
    st.(queries := st.queries + [GroupQuery(st.phraseQueries, Phrase)], phraseQueries := [])
  }

  /** `queries.takeLast()` moved to the end of the phrase buffer with op
      Equal. */
  function PullLast(st: State): (r: State)
    requires |st.queries| > 0
    ensures r.queries == st.queries[..|st.queries| - 1]
    ensures |r.phraseQueries| == |st.phraseQueries| + 1 && r.phraseQueries[..|st.phraseQueries|] == st.phraseQueries
    ensures var moved, last := r.phraseQueries[|st.phraseQueries|], st.queries[|st.queries| - 1];
      moved.op == Equal && moved.term == last.term && moved.pos == last.pos && moved.subs == last.subs
    ensures r.inDoubleQuotes == st.inDoubleQuotes && r.inSingleQuotes == st.inSingleQuotes
    ensures r.inPhrase == st.inPhrase && r.position == st.position
  {
    var last := st.queries[|st.queries| - 1];
    st.(queries := st.queries[..|st.queries| - 1], phraseQueries := st.phraseQueries + [SetOp(last, Equal)])
  }

  /** The delimiter before a word. An empty delimiter is not examined; a
      double quote wins over a single quote, a quote over glue, and glue
      (no whitespace) over whitespace. */
  function OnDelimiter(st: State, delim: seq<CodeUnit>, glue: GlueRule): (r: State)
    ensures r.position == st.position
    ensures |delim| == 0 ==> r == st
    ensures DoubleQuote in delim ==>
      && r.inDoubleQuotes == !st.inDoubleQuotes
      && r.inSingleQuotes == st.inSingleQuotes
      && r.inPhrase == st.inPhrase
    ensures DoubleQuote !in delim && SingleQuote in delim ==>
      && r.inSingleQuotes == !st.inSingleQuotes
      && r.inDoubleQuotes == st.inDoubleQuotes
      && r.inPhrase == st.inPhrase
    ensures (&& |delim| > 0 && DoubleQuote !in delim && SingleQuote !in delim
             && (forall i :: 0 <= i < |delim| ==> !IsSpace(delim[i]))) ==>
      && r.inPhrase
      && r.inDoubleQuotes == st.inDoubleQuotes
      && r.inSingleQuotes == st.inSingleQuotes
    ensures (&& DoubleQuote !in delim && SingleQuote !in delim
             && (exists i :: 0 <= i < |delim| && IsSpace(delim[i]))) ==>
      && r.inPhrase == (st.inPhrase && st.phraseQueries == [])
      && r.inDoubleQuotes == st.inDoubleQuotes
      && r.inSingleQuotes == st.inSingleQuotes
  {
    if |delim| == 0 then st
    else if DoubleQuote in delim then
      if st.inDoubleQuotes then ClosePhrase(st).(inDoubleQuotes := false)
      else st.(inDoubleQuotes := true)
    else if SingleQuote in delim then
      if st.inSingleQuotes then ClosePhrase(st).(inSingleQuotes := false)
      else st.(inSingleQuotes := true)
    else if !ContainsSpace(delim) then
      var pull := !st.inPhrase && |st.queries| > 0
        && (glue == AsWritten || (!st.inDoubleQuotes && !st.inSingleQuotes));
      if pull then PullLast(st).(inPhrase := true)
      else st.(inPhrase := true)
    else if st.inPhrase && |st.phraseQueries| > 0 then ClosePhrase(st).(inPhrase := false)
    else st
  }

  /** A delimiter that glues two words: non-empty, no quote, no whitespace. */
  predicate IsGlue(d: seq<CodeUnit>)
  {
    |d| > 0 && DoubleQuote !in d && SingleQuote !in d && forall i :: 0 <= i < |d| ==> !IsSpace(d[i])
  }

  /** A whitespace delimiter without quotes. */
  predicate IsBlank(d: seq<CodeUnit>)
  {
    DoubleQuote !in d && SingleQuote !in d && exists i :: 0 <= i < |d| && IsSpace(d[i])
  }

  /** What each kind of delimiter does to the state. */

  lemma OpensDoubleQuote(st: State, d: seq<CodeUnit>, g: GlueRule)
    requires DoubleQuote in d && !st.inDoubleQuotes
    ensures OnDelimiter(st, d, g) == st.(inDoubleQuotes := true)
  {
  }

  lemma OpensSingleQuote(st: State, d: seq<CodeUnit>, g: GlueRule)
    requires DoubleQuote !in d && SingleQuote in d && !st.inSingleQuotes
    ensures OnDelimiter(st, d, g) == st.(inSingleQuotes := true)
  {
  }

  lemma ClosesDoubleQuote(st: State, d: seq<CodeUnit>, g: GlueRule)
    requires DoubleQuote in d && st.inDoubleQuotes
    ensures OnDelimiter(st, d, g) == ClosePhrase(st).(inDoubleQuotes := false)
  {
  }

  lemma ClosesSingleQuote(st: State, d: seq<CodeUnit>, g: GlueRule)
    requires DoubleQuote !in d && SingleQuote in d && st.inSingleQuotes
    ensures OnDelimiter(st, d, g) == ClosePhrase(st).(inSingleQuotes := false)
  {
  }

  lemma GluePulls(st: State, d: seq<CodeUnit>, g: GlueRule)
    requires IsGlue(d) && !st.inPhrase && |st.queries| > 0
    requires g == AsWritten || (!st.inDoubleQuotes && !st.inSingleQuotes)
    ensures OnDelimiter(st, d, g) == PullLast(st).(inPhrase := true)
  {
    assert !ContainsSpace(d);
  }

  lemma GlueMarks(st: State, d: seq<CodeUnit>, g: GlueRule)
    requires IsGlue(d)
    requires || st.inPhrase || |st.queries| == 0
             || (g == QuoteAware && (st.inDoubleQuotes || st.inSingleQuotes))
    ensures OnDelimiter(st, d, g) == st.(inPhrase := true)
  {
    assert !ContainsSpace(d);
  }

  lemma BlankCloses(st: State, d: seq<CodeUnit>, g: GlueRule)
    requires IsBlank(d) && st.inPhrase && |st.phraseQueries| > 0
    ensures OnDelimiter(st, d, g) == ClosePhrase(st).(inPhrase := false)
  {
    assert ContainsSpace(d);
  }

  lemma BlankPasses(st: State, d: seq<CodeUnit>, g: GlueRule)
    requires IsBlank(d) && !(st.inPhrase && |st.phraseQueries| > 0)
    ensures OnDelimiter(st, d, g) == st
  {
    assert ContainsSpace(d);
  }

  /** A word: it takes the next position; inside a quote or glued phrase it
      is buffered as an Equal term, otherwise it becomes a top-level term
      whose op follows the auto-expand rule. */
  function OnWord(st: State, term: seq<Byte>, autoExpandSize: int): (r: State)
    ensures r.position == st.position + 1
    ensures r.inDoubleQuotes == st.inDoubleQuotes && r.inSingleQuotes == st.inSingleQuotes
    ensures r.inPhrase == st.inPhrase
    ensures Grouping(st) ==>
      && r.queries == st.queries
      && r.phraseQueries == st.phraseQueries + [TermQuery(term, Equal, r.position)]
    ensures !Grouping(st) ==>
      && r.phraseQueries == st.phraseQueries
      && |r.queries| == |st.queries| + 1
      && r.queries[..|st.queries|] == st.queries
      && r.queries[|st.queries|].term == term
      && r.queries[|st.queries|].pos == r.position
      && r.queries[|st.queries|].subs == []
      && (r.queries[|st.queries|].op == StartsWith <==> autoExpandSize != 0 && |term| >= autoExpandSize)
      && (r.queries[|st.queries|].op != StartsWith ==> r.queries[|st.queries|].op == Equal)
  {
    var position := st.position + 1;
    if Grouping(st) then
      st.(position := position, phraseQueries := st.phraseQueries + [TermQuery(term, Equal, position)])
    else
      st.(position := position, queries := st.queries + [TermQuery(term, ExpandOp(autoExpandSize, term), position)])
  }

  /** One word with the delimiter before it, each boundary handled on its
      own: the delimiter is examined, then the word is emitted. */
  function Step(cfg: Config, st: State, tok: Token): (r: State)
    ensures r.position == st.position + 1
    ensures r.inDoubleQuotes == (st.inDoubleQuotes != (DoubleQuote in tok.delim))
    ensures r.inSingleQuotes == (st.inSingleQuotes != (DoubleQuote !in tok.delim && SingleQuote in tok.delim))
  {
    OnWord(OnDelimiter(st, tok.delim, cfg.glue), WordTerm(cfg, tok.word), cfg.autoExpandSize)
  }

  /** One step while grouping, given what the delimiter made of the state:
      the word is buffered as an Equal term. */
  lemma StepBuffers(cfg: Config, st: State, tok: Token, mid: State)
    requires OnDelimiter(st, tok.delim, cfg.glue) == mid && Grouping(mid)
    ensures Step(cfg, st, tok)
         == mid.(position := mid.position + 1,
                 phraseQueries := mid.phraseQueries + [TermQuery(WordTerm(cfg, tok.word), Equal, mid.position + 1)])
  {
  }

  /** One step outside any group: the word is a top-level term tagged by
      the auto-expand rule. */
  lemma StepEmits(cfg: Config, st: State, tok: Token, mid: State)
    requires OnDelimiter(st, tok.delim, cfg.glue) == mid && !Grouping(mid)
    ensures Step(cfg, st, tok)
         == mid.(position := mid.position + 1,
                 queries := mid.queries + [TermQuery(WordTerm(cfg, tok.word), ExpandOp(cfg.autoExpandSize, WordTerm(cfg, tok.word)), mid.position + 1)])
  {
  }

  /** The boundary loop: one step per word, in input order. */
  function Scan(cfg: Config, toks: seq<Token>): (st: State)
    ensures st.position == |toks|
  {
    if |toks| == 0 then Initial
    else Step(cfg, Scan(cfg, toks[..|toks| - 1]), toks[|toks| - 1])
  }

  /** The end-of-input loop over the buffer: each query keeps its term,
      position and children and takes the op of the auto-expand rule. */
  function Retag(qs: seq<Query>, autoExpandSize: int): (r: seq<Query>)
    ensures |r| == |qs|
    ensures forall i :: 0 <= i < |qs| ==>
      && r[i].term == qs[i].term && r[i].pos == qs[i].pos && r[i].subs == qs[i].subs
      && (r[i].op == StartsWith <==> autoExpandSize != 0 && |qs[i].term| >= autoExpandSize)
      && (r[i].op != StartsWith ==> r[i].op == Equal)
  {
    seq(|qs|, i requires 0 <= i < |qs| => SetOp(qs[i], ExpandOp(autoExpandSize, qs[i].term)))
  }

  /** End of input: a glued phrase still open becomes one Phrase; otherwise
      the buffered queries (an unclosed quote) are re-tagged by the
      auto-expand rule and appended to the top level in order. */
  function Finish(st: State, autoExpandSize: int): (r: seq<Query>)
    ensures st.inPhrase ==> r == st.queries + [GroupQuery(st.phraseQueries, Phrase)]
    ensures !st.inPhrase ==>
      && |r| == |st.queries| + |st.phraseQueries|
      && r[..|st.queries|] == st.queries
      && forall i :: 0 <= i < |st.phraseQueries| ==>
        && r[|st.queries| + i].term == st.phraseQueries[i].term
        && r[|st.queries| + i].pos == st.phraseQueries[i].pos
        && r[|st.queries| + i].subs == st.phraseQueries[i].subs
        && (r[|st.queries| + i].op == StartsWith
            <==> autoExpandSize != 0 && |st.phraseQueries[i].term| >= autoExpandSize)
        && (r[|st.queries| + i].op != StartsWith ==> r[|st.queries| + i].op == Equal)
  {
    var st' := if st.inPhrase then ClosePhrase(st).(inPhrase := false) else st;
    st'.queries + Retag(st'.phraseQueries, autoExpandSize)
  }

  /** The queries built from the words of the text. */
  function WordQueries(cfg: Config, toks: seq<Token>): seq<Query>
  {
    Finish(Scan(cfg, toks), cfg.autoExpandSize)
  }

  /** The source's boundary loop, which differs from `Scan` in one case: a
      boundary that ends one word and starts the next is handled as a start
      only. The word that ends there is never emitted, and since `end` is
      not moved, the next delimiter examined runs from the end of the last
      emitted word up to the new start, so it holds the text examined
      before plus the skipped word. `delim` is the text examined at the
      start of the current word, `open` the word started and not yet
      emitted. */
  datatype Loop = Loop(st: State, delim: seq<CodeUnit>, open: Option<seq<CodeUnit>>)

  /** Every word after the first has a non-empty delimiter before it: no
      boundary both ends and starts a word. */
  predicate Separated(toks: seq<Token>)
  {
    forall k :: 0 < k < |toks| ==> toks[k].delim != []
  }

  /** One word start. Before a non-empty delimiter the open word reached a
      pure end boundary and is emitted, then the delimiter is examined;
      right after the open word (empty delimiter) nothing is emitted and
      the text from the last emitted word's end is examined again. */
  function BoundaryStep(cfg: Config, lp: Loop, tok: Token): (r: Loop)
    ensures r.open == Some(tok.word)
    ensures lp.open.Some? && tok.delim == [] ==>
      r.st.position == lp.st.position && r.delim == lp.delim + lp.open.value
    ensures lp.open.None? ==> r.st.position == lp.st.position && r.delim == tok.delim
    ensures lp.open.Some? && tok.delim != [] ==>
      r.st.position == lp.st.position + 1 && r.delim == tok.delim
  {
    if lp.open.Some? && tok.delim == [] then
      var text := lp.delim + lp.open.value;
      Loop(OnDelimiter(lp.st, text, cfg.glue), text, Some(tok.word))
    else
      var st := if lp.open.Some? then OnWord(lp.st, WordTerm(cfg, lp.open.value), cfg.autoExpandSize) else lp.st;
      Loop(OnDelimiter(st, tok.delim, cfg.glue), tok.delim, Some(tok.word))
  }

  /** What each kind of word start examines and emits. */
  lemma BoundaryStepExamines(cfg: Config, lp: Loop, tok: Token)
    ensures lp.open.Some? && tok.delim == [] ==>
      BoundaryStep(cfg, lp, tok).st == OnDelimiter(lp.st, lp.delim + lp.open.value, cfg.glue)
    ensures lp.open.None? ==>
      BoundaryStep(cfg, lp, tok).st == OnDelimiter(lp.st, tok.delim, cfg.glue)
    ensures lp.open.Some? && tok.delim != [] ==>
      BoundaryStep(cfg, lp, tok).st
        == OnDelimiter(OnWord(lp.st, WordTerm(cfg, lp.open.value), cfg.autoExpandSize), tok.delim, cfg.glue)
  {
  }

  function BoundaryScan(cfg: Config, toks: seq<Token>): (r: Loop)
    ensures r.open.None? <==> |toks| == 0
    ensures |toks| > 0 ==> r.open == Some(toks[|toks| - 1].word)
  {
    if |toks| == 0 then Loop(Initial, [], None)
    else BoundaryStep(cfg, BoundaryScan(cfg, toks[..|toks| - 1]), toks[|toks| - 1])
  }

  /** The last word's end boundary emits it; then the end-of-input flush.
      A text with words always gives at least one query. */
  function BoundaryQueries(cfg: Config, toks: seq<Token>): (r: seq<Query>)
    ensures |r| == 0 <==> |toks| == 0
  {
    var lp := BoundaryScan(cfg, toks);
    var st := if lp.open.Some? then OnWord(lp.st, WordTerm(cfg, lp.open.value), cfg.autoExpandSize) else lp.st;
    Finish(st, cfg.autoExpandSize)
  }

  /** Without touching words the boundary loop is the word-by-word fold:
      it holds the state `Scan` reaches before the last word, with that
      word's delimiter examined. */
  lemma {:induction false} BoundaryScanSeparated(cfg: Config, toks: seq<Token>)
    requires |toks| > 0 && Separated(toks)
    ensures BoundaryScan(cfg, toks)
         == Loop(OnDelimiter(Scan(cfg, toks[..|toks| - 1]), toks[|toks| - 1].delim, cfg.glue),
                 toks[|toks| - 1].delim, Some(toks[|toks| - 1].word))
    decreases |toks|
  {
    var front := toks[..|toks| - 1];
    if |front| > 0 {
      assert Separated(front) by {
        forall k | 0 < k < |front| ensures front[k].delim != [] {
          assert front[k] == toks[k];
        }
      }
      BoundaryScanSeparated(cfg, front);
      assert front[..|front| - 1] == toks[..|toks| - 2];
      assert toks[|toks| - 1].delim != [];
    }
  }

  /** Without touching words the source's loop and the word-by-word fold
      build the same queries. */
  lemma BoundaryQueriesSeparated(cfg: Config, toks: seq<Token>)
    requires Separated(toks)
    ensures BoundaryQueries(cfg, toks) == WordQueries(cfg, toks)
  {
    if |toks| > 0 {
      BoundaryScanSeparated(cfg, toks);
      assert Scan(cfg, toks) == Step(cfg, Scan(cfg, toks[..|toks| - 1]), toks[|toks| - 1]);
    }
  }

  /** The CJK code units of the text, in order (`cjkString`). */
  function CjkUnits(text: seq<CodeUnit>): (r: seq<CodeUnit>)
    ensures |r| <= |text|
    ensures |text| == 1 ==> r == (if IsCjk(text[0]) then text else [])
    ensures forall i :: 0 <= i < |r| ==> IsCjk(r[i])
    ensures forall c :: c in r <==> c in text && IsCjk(c)
  {
    if |text| == 0 then []
    else
      var last := text[|text| - 1];
      CjkUnits(text[..|text| - 1]) + (if IsCjk(last) then [last] else [])
  }

  /** The CJK units of a concatenation are those of each part, in order;
      with the one-unit case this pins the filter down: one entry per CJK
      code unit, in input order, duplicates kept. */
  lemma {:induction false} CjkUnitsAppend(a: seq<CodeUnit>, b: seq<CodeUnit>)
    ensures CjkUnits(a + b) == CjkUnits(a) + CjkUnits(b)
    decreases |b|
  {
    if |b| > 0 {
      var b' := b[..|b| - 1];
      assert (a + b)[..|a + b| - 1] == a + b';
      CjkUnitsAppend(a, b');
    } else {
      assert a + b == a;
    }
  }

  /** The StartsWith term, without position, that one CJK code unit adds. */
  function CjkTerm(c: CodeUnit): (r: Query)
    requires IsCjk(c)
    ensures r.op == StartsWith && r.pos == 0 && r.subs == []
    ensures DecodeUnit(r.term) == Some(c)
  {
    DecodeEncode(c);
    TermQuery(EncodeUnit(c), StartsWith, 0)
  }

  /** One StartsWith term per CJK code unit of the text, in input order. */
  function CjkQueries(text: seq<CodeUnit>): (r: seq<Query>)
    ensures |r| == |CjkUnits(text)|
    ensures forall i :: 0 <= i < |r| ==> r[i] == CjkTerm(CjkUnits(text)[i])
  {
    if |text| == 0 then []
    else
      var last := text[|text| - 1];
      CjkQueries(text[..|text| - 1]) + (if IsCjk(last) then [CjkTerm(last)] else [])
  }

  /** The CJK loop over the text's code units, as the source writes it. */
  method CollectCjk(text: seq<CodeUnit>) returns (queries: seq<Query>, cjkString: seq<CodeUnit>)
    ensures cjkString == CjkUnits(text)
    ensures queries == CjkQueries(text)
  {
    queries, cjkString := [], [];
    var i := 0;
    while i < |text|
      invariant 0 <= i <= |text|
      invariant cjkString == CjkUnits(text[..i])
      invariant queries == CjkQueries(text[..i])
    {
      var cha := text[i];
      assert text[..i + 1][..i] == text[..i];
      if IsCjk(cha) {
        queries := queries + [CjkTerm(cha)];
        cjkString := cjkString + [cha];
      }
      i := i + 1;
    }
    assert text[..i] == text;
  }

  /** The single query when there is exactly one, otherwise And over all of
      them (also when there are none). */
  function Combine(qs: seq<Query>): (r: Query)
    ensures |qs| == 1 ==> r == qs[0]
    ensures |qs| != 1 ==> r.op == And && r.subs == qs
    ensures WordsOf(r) == WordsOfAll(qs)
  {
    if |qs| == 1 then
      WordsOfAllSingle(qs[0]);
      assert qs == [qs[0]];
      qs[0]
    else GroupQuery(qs, And)
  }

  /** The whole parse for one configuration. Empty text violates the
      parser's assertion. */
  function Parse(cfg: Config, text: seq<CodeUnit>, seg: Segmentation): Query
    requires |text| > 0
    requires Segments(seg, ReplaceUnderscores(text))
  {
    Combine(BoundaryQueries(cfg, seg.tokens) + CjkQueries(ReplaceUnderscores(text)))
  }

  /** The parse with touching words handled as two boundaries, an end and
      then a start, so that every word is emitted. */
  function ParseEveryWord(cfg: Config, text: seq<CodeUnit>, seg: Segmentation): Query
    requires |text| > 0
    requires Segments(seg, ReplaceUnderscores(text))
  {
    Combine(WordQueries(cfg, seg.tokens) + CjkQueries(ReplaceUnderscores(text)))
  }

  /** The two agree on every segmentation without touching words. */
  lemma ParseSeparated(cfg: Config, text: seq<CodeUnit>, seg: Segmentation)
    requires |text| > 0
    requires Segments(seg, ReplaceUnderscores(text))
    requires Separated(seg.tokens)
    ensures Parse(cfg, text, seg) == ParseEveryWord(cfg, text, seg)
  {
    BoundaryQueriesSeparated(cfg, seg.tokens);
  }

  /** `parseQuery(text, prefix)` as the source writes it; `seg` is the word
      segmentation of the text after underscores became spaces. */
  function ParseQuery(p: QueryParser, svc: TextServices, text: seq<CodeUnit>, prefix: seq<CodeUnit>, seg: Segmentation): (r: Query)
    requires |text| > 0
    requires Segments(seg, ReplaceUnderscores(text))
    ensures |seg.tokens| == 0 && CjkUnits(ReplaceUnderscores(text)) == [] ==> r.op == And && r.subs == []
    ensures |seg.tokens| == 0 && |CjkUnits(ReplaceUnderscores(text))| == 1 ==>
      r == CjkTerm(CjkUnits(ReplaceUnderscores(text))[0])
    ensures |seg.tokens| == 0 && |CjkUnits(ReplaceUnderscores(text))| > 1 ==>
      r.op == And && r.subs == CjkQueries(ReplaceUnderscores(text))
  {
    Parse(Config(p.autoExpandSize, prefix, svc, AsWritten), text, seg)
  }

  /** `parseQuery` with both corrections: a glue delimiter pulls the
      previous top-level query only when no quote is open, and a boundary
      between touching words ends the first word before starting the next. */
  function ParseQueryCorrected(p: QueryParser, svc: TextServices, text: seq<CodeUnit>, prefix: seq<CodeUnit>, seg: Segmentation): (r: Query)
    requires |text| > 0
    requires Segments(seg, ReplaceUnderscores(text))
    ensures |seg.tokens| == 0 && CjkUnits(ReplaceUnderscores(text)) == [] ==> r.op == And && r.subs == []
    ensures |seg.tokens| == 0 && |CjkUnits(ReplaceUnderscores(text))| == 1 ==>
      r == CjkTerm(CjkUnits(ReplaceUnderscores(text))[0])
    ensures |seg.tokens| == 0 && |CjkUnits(ReplaceUnderscores(text))| > 1 ==>
      r.op == And && r.subs == CjkQueries(ReplaceUnderscores(text))
  {
    ParseEveryWord(Config(p.autoExpandSize, prefix, svc, QuoteAware), text, seg)
  }
}

=== FILE: unicode.dfy ===
/** UTF-16 code units, UTF-8 bytes and the character classes the query
    parser looks at: whitespace (QChar::isSpace), the CJK ideograph ranges
    and the underscore rewrite done before scanning. */
module Unicode {

  /** A UTF-16 code unit, the value `QChar::unicode()` returns. */
  newtype CodeUnit = x: int | 0 <= x < 0x1_0000

  /** One byte of a UTF-8 encoded term. */
  newtype Byte = x: int | 0 <= x < 0x100

  datatype Option<T> = None | Some(value: T)

  const Space: CodeUnit := 0x20
  const DoubleQuote: CodeUnit := 0x22
  const SingleQuote: CodeUnit := 0x27
  const Hyphen: CodeUnit := 0x2D
  const Underscore: CodeUnit := 0x5F

  /** QChar::isSpace for one code unit: the control characters TAB..CR,
      U+0085, and every code point of category Zs, Zl or Zp in the Basic
      Multilingual Plane (Unicode 6.3 or later, so U+180E is not a space). */
  function IsSpace(c: CodeUnit): (r: bool)
    ensures c == Space ==> r
    ensures r ==> c != DoubleQuote && c != SingleQuote && c != Underscore && c != Hyphen && !IsCjk(c)
  {
    || 0x09 <= c <= 0x0D
    || c == 0x20 || c == 0x85 || c == 0xA0
    || c == 0x1680
    || 0x2000 <= c <= 0x200A
    || c == 0x2028 || c == 0x2029
    || c == 0x202F || c == 0x205F || c == 0x3000
  }

  /** The parser's `containsSpace`: walks the string and stops at the first
      whitespace code unit. */
  function ContainsSpace(s: seq<CodeUnit>): (r: bool)
    ensures r <==> exists i :: 0 <= i < |s| && IsSpace(s[i])
  {
    if |s| == 0 then false
    else if IsSpace(s[0]) then true
    else
      var r := ContainsSpace(s[1..]);
      assert forall i :: 1 <= i < |s| ==> s[i] == s[1..][i - 1];
      r
  }

  /** `text.replace('_', ' ')`: every underscore becomes a space and nothing
      else changes. */
  function ReplaceUnderscores(s: seq<CodeUnit>): (r: seq<CodeUnit>)
    ensures |r| == |s|
    ensures Underscore !in r
  {
    if |s| == 0 then []
    else
      var last := s[|s| - 1];
      ReplaceUnderscores(s[..|s| - 1]) + [if last == Underscore then Space else last]
  }

  /** The rewrite changes underscores into spaces and keeps every other
      code unit where it was. */
  lemma {:induction false} ReplaceUnderscoresAt(s: seq<CodeUnit>)
    ensures forall i :: 0 <= i < |s| ==>
      ReplaceUnderscores(s)[i] == (if s[i] == Underscore then Space else s[i])
    decreases |s|
  {
    if |s| > 0 {
      ReplaceUnderscoresAt(s[..|s| - 1]);
    }
  }

  predicate IsSurrogate(c: CodeUnit)
  {
    0xD800 <= c <= 0xDFFF
  }

  predicate IsHighSurrogate(c: CodeUnit)
  {
    0xD800 <= c <= 0xDBFF
  }

  predicate IsLowSurrogate(c: CodeUnit)
  {
    0xDC00 <= c <= 0xDFFF
  }

  /** Well-formed UTF-16: every high surrogate is followed by a low one and
      every low surrogate follows a high one. */
  predicate WellFormed(s: seq<CodeUnit>)
  {
    && (forall i :: 0 <= i < |s| && IsHighSurrogate(s[i]) ==> i + 1 < |s| && IsLowSurrogate(s[i + 1]))
    && (forall i :: 0 <= i < |s| && IsLowSurrogate(s[i]) ==> 0 < i && IsHighSurrogate(s[i - 1]))
  }

  /** The parser's CJK test on `uint uni = cha.unicode()`. It lists five
      ranges; the two supplementary ones (0x20000.., 0x2F800..) lie above
      every 16-bit code unit and can never match, so what remains is
      0x3400-0x9FFF and 0xF900-0xFAFF. */
  function IsCjk(c: CodeUnit): (r: bool)
    ensures r <==> (0x3400 <= c <= 0x9FFF || 0xF900 <= c <= 0xFAFF)
    ensures r ==> !IsSurrogate(c) && c >= 0x800
  {
    var uni := c as int;
    || (0x4E00 <= uni <= 0x9FFF)
    || (0x3400 <= uni <= 0x4DFF)
    || (0x20000 <= uni <= 0x2A6DF)
    || (0xF900 <= uni <= 0xFAFF)
    || (0x2F800 <= uni <= 0x2FA1F)
  }

  /** UTF-8 encoding (RFC 3629) of a single code unit that is not a
      surrogate, as `QString(cha).toUtf8()` produces it. */
  function EncodeUnit(c: CodeUnit): (r: seq<Byte>)
    requires !IsSurrogate(c)
    ensures |r| == (if c < 0x80 then 1 else if c < 0x800 then 2 else 3)
    ensures |r| == 1 <==> r[0] < 0x80
    ensures |r| == 3 ==> 0xE0 <= r[0] <= 0xEF
  {
    var u := c as int;
    if u < 0x80 then [u as Byte]
    else if u < 0x800 then [(0xC0 + u / 64) as Byte, (0x80 + u % 64) as Byte]
    else [(0xE0 + u / 4096) as Byte, (0x80 + (u / 64) % 64) as Byte, (0x80 + u % 64) as Byte]
  }

  /** The UTF-8 decoder for one to three bytes: rejects overlong forms,
      surrogates and malformed continuation bytes. */
  function DecodeUnit(b: seq<Byte>): Option<CodeUnit>
  {
    if |b| == 1 && b[0] < 0x80 then Some(b[0] as int as CodeUnit)
    else if |b| == 2 && 0xC2 <= b[0] <= 0xDF && 0x80 <= b[1] <= 0xBF then
      Some(((b[0] as int - 0xC0) * 64 + (b[1] as int - 0x80)) as CodeUnit)
    else if |b| == 3 && 0xE0 <= b[0] <= 0xEF && 0x80 <= b[1] <= 0xBF && 0x80 <= b[2] <= 0xBF then
      var u := (b[0] as int - 0xE0) * 4096 + (b[1] as int - 0x80) * 64 + (b[2] as int - 0x80);
      if u < 0x800 || 0xD800 <= u <= 0xDFFF then None else Some(u as CodeUnit)
    else None
  }

  /** Decoding an encoded code unit gives it back. */
  lemma DecodeEncode(c: CodeUnit)
    requires !IsSurrogate(c)
    ensures DecodeUnit(EncodeUnit(c)) == Some(c)
  {
    var u := c as int;
    if u >= 0x800 {
      assert u == (u / 4096) * 4096 + ((u / 64) % 64) * 64 + u % 64;
    } else if u >= 0x80 {
      assert u == (u / 64) * 64 + u % 64;
    }
  }

  /** Every byte string the decoder accepts is the encoding of what it
      decodes to, so the encoding is a bijection onto accepted strings. */
  lemma EncodeDecode(b: seq<Byte>)
    requires DecodeUnit(b).Some?
    ensures !IsSurrogate(DecodeUnit(b).value)
    ensures EncodeUnit(DecodeUnit(b).value) == b
  {
    if |b| == 3 {
      EncodeDecodeThree(b);
    } else if |b| == 2 {
      EncodeDecodeTwo(b);
    }
  }

  lemma EncodeDecodeTwo(b: seq<Byte>)
    requires |b| == 2 && DecodeUnit(b).Some?
    ensures !IsSurrogate(DecodeUnit(b).value)
    ensures EncodeUnit(DecodeUnit(b).value) == b
  {
    var u := DecodeUnit(b).value as int;
    var x, y := b[0] as int - 0xC0, b[1] as int - 0x80;
    assert u == x * 64 + y;
    assert u / 64 == x && u % 64 == y;
  }

  lemma EncodeDecodeThree(b: seq<Byte>)
    requires |b| == 3 && DecodeUnit(b).Some?
    ensures !IsSurrogate(DecodeUnit(b).value)
    ensures EncodeUnit(DecodeUnit(b).value) == b
  {
    var u := DecodeUnit(b).value as int;
    var x, y, z := b[0] as int - 0xE0, b[1] as int - 0x80, b[2] as int - 0x80;
    assert u == x * 4096 + y * 64 + z;
    assert u / 64 == x * 64 + y && u % 64 == z;
    assert u / 4096 == x && (u / 64) % 64 == y;
  }
}
